=== FILE: README.md ===
# quick_node_clone: the cloning core, modelled in Dafny

Quick Node Clone is a Drupal module. It opens the node edit form pre-filled with a copy of an
existing node. The copy is built by the form builder `QuickNodeCloneEntityFormBuilder`. This
project models what that builder does to the entity graph before the form is shown:

- `getForm()` duplicates the node with `createDuplicate()`. It sets the author to the current
  user and sets `created`, `changed` and `revision_timestamp` to the current time. Then it
  visits every translation of the node.
- For each translation, `cloneParagraphs()` replaces every loaded paragraph in a
  paragraph-typed field with an unsaved duplicate. Fields that the paragraph bundle's
  `exclude.paragraph.<bundle>` setting names are emptied in that duplicate.
- Next, `cloneInlineBlocks()` rebuilds every section of the Layout Builder field. Each inline
  block component gets a new uuid in its own place. Its block content is loaded from the
  serialized payload, or else from the revision, and a duplicate of it is stored serialized.
- The rest of the loop body applies the module's own policy:
  - it unsets the fields named by `exclude.node.<bundle>`;
  - unless `clone_status` is set, it resets the publishing status to the bundle's default;
  - it puts `text_to_prepend_to_title` and a space in front of the title.
- `excludeParagraphField()` and `getConfigSettings()` read the module's settings object with
  PHP's conversions: truthiness, `in_array`, and string concatenation.

Layout of the project:

- `wrappers.dfy` holds `Option`.
- `settings.dfy` holds the settings object and the PHP conversions applied to what is read
  from it.
- `entity.dfy` models nodes, paragraphs, block content, sections and components as values.
  Field access follows Drupal's split between untranslatable fields, which are stored once,
  and translatable fields, which are stored per language. The laws of that access are lemmas.
- `node.dfy` has the mutable objects: the uuid service (a counter) and a `Node` class whose
  fields are updated in place by `set`, `unset`, reference assignment, `insertSection` and
  `removeSection`.
- `paragraphs.dfy` and `layout.dfy` describe the two rewrite passes as specification
  functions. Each comes with a relation (`ItemCloned`, `ComponentCloned`) that says what a
  rewritten item or component is, and lemmas that prove it.
- `layout.dfy` also holds the `Section` class, whose component list
  `insertAfterComponent` and `removeComponent` edit in place.
- `policy.dfy` composes the passes into one translation pass and folds it over the node's
  languages. Its lemmas state what the clone holds in every translation: prefixed titles,
  reset status, emptied exclusions, authorship, untouched fields, freshly minted paragraphs and
  inline blocks, and layouts that stay keyed by uuid.
- `builder.dfy` is the form builder class. Its methods keep the source's loops and in-place
  updates. Each is proved to leave exactly the state that the specification functions
  describe, including the uuid counter.

Uuids are modelled by a counter. "Fresh" means issued at or after the counter value at which
cloning started. `ClonedSharesNothing` adds the hypothesis that every identity the original
holds or reaches was issued before that value, which stands for the uniqueness of v4 uuids.
From it, the lemma proves that the clone holds no uuid of the original: not as its own uuid,
not in the paragraphs it refers to and not in its inline blocks or their block copies. The
clone can still reach the original's block content, through a `block_revision_id` that a
corrupt payload leaves in place (see "Left out").

## Model

| member | source | states |
|---|---|---|
| QuickNodeClone.QuickNodeCloneEntityFormBuilder.GetForm | quick_node_clone/src/Entity/QuickNodeCloneEntityFormBuilder.php:142-203 | The node handed to the form is a new object. It is held in the last language the loop visited. The original is left unchanged. Apart from that language, the clone and the uuid counter are exactly `ClonedNode` of the original: the duplicate takes one uuid, then every translation passes through paragraphs, inline blocks and policy, in language order |
| QuickNodeClone.QuickNodeCloneEntityFormBuilder.PrepareDuplicate | quick_node_clone/src/Entity/QuickNodeCloneEntityFormBuilder.php:146-150 | A new node holding `Prepared(original)`: the duplicate with a fresh uuid, the current user as `uid` and `now` as the three timestamps. Exactly one uuid is used. The original is unchanged. The well-formedness and layout invariants carry over |
| QuickNodeClone.QuickNodeCloneEntityFormBuilder.CloneTranslations | quick_node_clone/src/Entity/QuickNodeCloneEntityFormBuilder.php:167-203 | The loop over translation languages leaves the node and the counter at `ClonePasses` over all languages, that is at `ClonedNode` |
| QuickNodeClone.QuickNodeCloneEntityFormBuilder.CloneTranslation | quick_node_clone/src/Entity/QuickNodeCloneEntityFormBuilder.php:169-202 | One loop iteration leaves the node and the counter at `TranslationPass`. It keeps well-formedness, the base fields and the uuid-keyed layouts |
| QuickNodeClone.QuickNodeCloneEntityFormBuilder.ApplyPolicy | quick_node_clone/src/Entity/QuickNodeCloneEntityFormBuilder.php:174-202 | The unset loop, the status reset and the title write leave the node at `ApplyNodePolicy` |
| QuickNodeClone.QuickNodeCloneEntityFormBuilder.CloneParagraphs | quick_node_clone/src/Entity/QuickNodeCloneEntityFormBuilder.php:236-265 | The loop over field definitions leaves the node and the counter at `ParagraphPass` |
| QuickNodeClone.QuickNodeCloneEntityFormBuilder.VisitParagraphField | quick_node_clone/src/Entity/QuickNodeCloneEntityFormBuilder.php:238-261 | For one definition: only a non-empty field whose target type is `paragraph` is rewritten, and the result is `CloneParagraphField` |
| QuickNodeClone.QuickNodeCloneEntityFormBuilder.CloneFieldParagraphs | quick_node_clone/src/Entity/QuickNodeCloneEntityFormBuilder.php:243-259 | The item loop writes `CloneParagraphItems` of the field's items back into the field. It uses exactly the uuids that function counts |
| QuickNodeClone.QuickNodeCloneEntityFormBuilder.CloneParagraphAt | quick_node_clone/src/Entity/QuickNodeCloneEntityFormBuilder.php:244-258 | Only item `delta` changes, to `CloneParagraphItem` of it. A loaded paragraph becomes its cleared duplicate under one new uuid. Any other item leaves the node unchanged |
| QuickNodeClone.QuickNodeCloneEntityFormBuilder.ClearExcludedParagraphFields | quick_node_clone/src/Entity/QuickNodeCloneEntityFormBuilder.php:246-257 | The loop over a duplicate's fields yields `ClearExcludedFields`: same keys and identity, and exactly the excluded fields emptied |
| QuickNodeClone.QuickNodeCloneEntityFormBuilder.CloneInlineBlocks | quick_node_clone/src/Entity/QuickNodeCloneEntityFormBuilder.php:279-343 | Without a layout field, or with an empty one, nothing changes. Otherwise the node and the counter end at `InlineBlockPass` |
| QuickNodeClone.QuickNodeCloneEntityFormBuilder.CloneLayoutSections | quick_node_clone/src/Entity/QuickNodeCloneEntityFormBuilder.php:293-340 | The section loop leaves the layout field holding `CloneSections` of its sections, with the counter advanced accordingly |
| QuickNodeClone.QuickNodeCloneEntityFormBuilder.CloneSectionAt | quick_node_clone/src/Entity/QuickNodeCloneEntityFormBuilder.php:293-339 | Section `sid` alone is replaced, by `CloneSection` of it. Every other section and field stays as it was |
| QuickNodeClone.QuickNodeCloneEntityFormBuilder.CloneSectionComponents | quick_node_clone/src/Entity/QuickNodeCloneEntityFormBuilder.php:295-336 | The component loop over a section object leaves it at `CloneSection` of its old value |
| QuickNodeClone.QuickNodeCloneEntityFormBuilder.CloneComponentAt | quick_node_clone/src/Entity/QuickNodeCloneEntityFormBuilder.php:296-335 | Only component `j` changes, to `CloneComponent` of it. A component of another plugin is skipped. The section stays keyed by uuid, with every uuid below the counter |
| QuickNodeClone.QuickNodeCloneEntityFormBuilder.CloneInlineBlock | quick_node_clone/src/Entity/QuickNodeCloneEntityFormBuilder.php:303-331 | The new component equals `CloneComponent`. It has the same region, and its uuid was issued during this call |
| QuickNodeClone.ReplaceComponent | quick_node_clone/src/Entity/QuickNodeCloneEntityFormBuilder.php:334-335 | insertAfterComponent followed by removeComponent puts the new component exactly in the old one's position. The section stays keyed by uuid |
| QuickNodeClone.ReplaceSection | quick_node_clone/src/Entity/QuickNodeCloneEntityFormBuilder.php:338-339 | insertSection(sid) followed by removeSection(sid + 1) replaces section `sid` and nothing else |
| QuickNodeClone.ReplaceInPlace | quick_node_clone/src/Entity/QuickNodeCloneEntityFormBuilder.php:334-335 | In a uuid-keyed list, the component at `j` is found at `j`. The new uuid is not yet a key. After the insertion the list is still keyed, and removing the old key leaves the new component at `j` |
| InlineBlocks.Section.InsertAfterComponent | quick_node_clone/src/Entity/QuickNodeCloneEntityFormBuilder.php:334 | The component is spliced in right after the one with the given uuid. The section stays keyed by uuid |
| InlineBlocks.Section.RemoveComponent | quick_node_clone/src/Entity/QuickNodeCloneEntityFormBuilder.php:335 | The component with the given uuid is dropped. If there is none, nothing changes |
| Nodes.Node.GetTranslation | quick_node_clone/src/Entity/QuickNodeCloneEntityFormBuilder.php:169 | A new object with the node's data, held in the given language |
| Nodes.Node.CreateDuplicate | quick_node_clone/src/Entity/QuickNodeCloneEntityFormBuilder.php:146 | A new object with every field value of every translation, a fresh uuid, and no id or revision |
| Nodes.Node.Set | quick_node_clone/src/Entity/QuickNodeCloneEntityFormBuilder.php:147-150 | Writes one field view: per language for a translatable field, the shared copy otherwise |
| Nodes.Node.Unset | quick_node_clone/src/Entity/QuickNodeCloneEntityFormBuilder.php:178 | Empties a defined field, keeping its kind. An undefined name changes nothing |
| Nodes.Node.SetReference | quick_node_clone/src/Entity/QuickNodeCloneEntityFormBuilder.php:245 | Assigning the item's entity replaces item `delta` only, and the target id follows the new entity |
| Nodes.Node.InsertSection | quick_node_clone/src/Entity/QuickNodeCloneEntityFormBuilder.php:338 | Splices a section in before `delta`, or appends it when there is no such section. Both cases are stated by `InsertSectionAt` |
| Nodes.Node.RemoveSection | quick_node_clone/src/Entity/QuickNodeCloneEntityFormBuilder.php:339 | Drops the section at `delta` and renumbers the rest |
| Nodes.UuidService.Generate | quick_node_clone/src/Entity/QuickNodeCloneEntityFormBuilder.php:327 | Returns a uuid that no earlier call returned |
| Settings.Truthy | quick_node_clone/src/Entity/QuickNodeCloneEntityFormBuilder.php:176-188 | PHP's boolean conversion of a setting: NULL, FALSE, "", "0" and the empty list are false |
| Settings.PhpString | quick_node_clone/src/Entity/QuickNodeCloneEntityFormBuilder.php:185 | PHP's string conversion of a setting, as in the concatenation with " " |
| Settings.KeepsStatus | quick_node_clone/src/Entity/QuickNodeCloneEntityFormBuilder.php:187-188 | The status is kept exactly when `clone_status` is truthy |
| Settings.ParagraphFieldExcluded | quick_node_clone/src/Entity/QuickNodeCloneEntityFormBuilder.php:252 | The `if` at the call site: a paragraph field is cleared only when the exclusion check answers TRUE. `ClearExcludedFieldsExact` states its effect |
| Settings.GetConfigSettings | quick_node_clone/src/Entity/QuickNodeCloneEntityFormBuilder.php:372-377 | The stored value of the key. A missing key reads as NULL, which is falsy |
| Settings.ExcludeParagraphField | quick_node_clone/src/Entity/QuickNodeCloneEntityFormBuilder.php:356-361 | NULL exactly when the bundle's setting is missing, falsy, an empty list or not a list. TRUE exactly when it is a list that contains the field name. Both directions are stated |
| Settings.ExcludedNodeFields | quick_node_clone/src/Entity/QuickNodeCloneEntityFormBuilder.php:175-180 | A name is unset exactly when the bundle's node exclusion setting is a list that contains it |
| Settings.TitlePrefix | quick_node_clone/src/Entity/QuickNodeCloneEntityFormBuilder.php:182-186 | A truthy prefix setting becomes its string form plus one space. Otherwise the prefix is empty |
| Entity.IsEmpty | quick_node_clone/src/Entity/QuickNodeCloneEntityFormBuilder.php:242 | A field item list is empty when every item is empty. A layout is empty when it has no sections |
| Entity.Title | quick_node_clone/src/Entity/QuickNodeCloneEntityFormBuilder.php:196 | `getTitle()`: the text of the first title item, or the empty string |
| Entity.Get | quick_node_clone/src/Entity/QuickNodeCloneEntityFormBuilder.php:242 | A field view: the per-language value of a translatable field, the shared value otherwise, and an empty list when nothing is stored. `GetSetField` states its meaning |
| Entity.SetField | quick_node_clone/src/Entity/QuickNodeCloneEntityFormBuilder.php:147-150 | Writing a field view keeps the node's shape. `GetSetField` states what each view reads afterwards |
| Entity.UnsetField | quick_node_clone/src/Entity/QuickNodeCloneEntityFormBuilder.php:178 | Unsetting keeps the node's shape. `UnsetFieldEmpties` states what each view reads afterwards |
| Entity.Cleared | quick_node_clone/src/Entity/QuickNodeCloneEntityFormBuilder.php:253 | The value an unset field holds: empty, and of the same kind as before |
| Entity.Encode | quick_node_clone/src/Entity/QuickNodeCloneEntityFormBuilder.php:323 | `serialize()` of a block. `DecodeEncode` states its round trip |
| Entity.Decode | quick_node_clone/src/Entity/QuickNodeCloneEntityFormBuilder.php:309 | `unserialize()`: the block back, or nothing for a string that is not a serialized block |
| Entity.DecodeEncode | quick_node_clone/src/Entity/QuickNodeCloneEntityFormBuilder.php:309-323 | Unserializing a serialized block gives the block back |
| Entity.DuplicateNode | quick_node_clone/src/Entity/QuickNodeCloneEntityFormBuilder.php:146 | The duplicate has a new uuid and no id or revision, and reads the same in every language and field |
| Entity.DuplicateBlock | quick_node_clone/src/Entity/QuickNodeCloneEntityFormBuilder.php:319 | The block duplicate has a new uuid, no id or revision, and the same field values |
| Entity.DuplicateSubEntity | quick_node_clone/src/Entity/QuickNodeCloneEntityFormBuilder.php:245 | The paragraph duplicate has a new uuid, no id or revision, and the same bundle and field values |
| Entity.InsertSectionAt | quick_node_clone/src/Entity/QuickNodeCloneEntityFormBuilder.php:338 | One more section: the new one at `delta`, the earlier ones before it and the later ones after it |
| Entity.RemoveSectionAt | quick_node_clone/src/Entity/QuickNodeCloneEntityFormBuilder.php:339 | One section fewer, with the neighbours closing up. An out-of-range delta changes nothing |
| Entity.GetSetField | quick_node_clone/src/Entity/QuickNodeCloneEntityFormBuilder.php:147-150 | After a set, a view the write affects (same field and same language, or any language for an untranslatable field) reads the new value. Every other view reads as before |
| Entity.SetFieldTwice | quick_node_clone/src/Entity/QuickNodeCloneEntityFormBuilder.php:338-339 | Two writes to the same view equal the last one |
| Entity.SetFieldSame | quick_node_clone/src/Entity/QuickNodeCloneEntityFormBuilder.php:243-244 | Writing back a stored value changes nothing |
| Entity.UnsetFieldEmpties | quick_node_clone/src/Entity/QuickNodeCloneEntityFormBuilder.php:178 | Unset empties the affected views of a defined field and leaves every other view alone |
| Paragraphs.ClearExcludedFields | quick_node_clone/src/Entity/QuickNodeCloneEntityFormBuilder.php:246-257 | The duplicate keeps its field names, id, revision, uuid and bundle. Its excluded fields are emptied |
| Paragraphs.CloneParagraphItems | quick_node_clone/src/Entity/QuickNodeCloneEntityFormBuilder.php:243-259 | The item loop as a function: one result item per item, with the counter never going back |
| Paragraphs.CloneParagraphField | quick_node_clone/src/Entity/QuickNodeCloneEntityFormBuilder.php:238-261 | One iteration of the definition loop: the node keeps its shape and the counter never goes back |
| Paragraphs.CloneParagraphFields | quick_node_clone/src/Entity/QuickNodeCloneEntityFormBuilder.php:237-262 | The definition loop as a function: the node keeps its shape and the counter never goes back |
| Paragraphs.ParagraphPass | quick_node_clone/src/Entity/QuickNodeCloneEntityFormBuilder.php:236-265 | `cloneParagraphs` on one translation: the node keeps its shape and the counter never goes back |
| Paragraphs.ClearExcludedFieldsExact | quick_node_clone/src/Entity/QuickNodeCloneEntityFormBuilder.php:246-254 | A field of the duplicate is emptied if and only if the exclusion check answers TRUE. Every other field keeps its value |
| Paragraphs.CloneParagraphItem | quick_node_clone/src/Entity/QuickNodeCloneEntityFormBuilder.php:244-258 | A reference to a loaded paragraph becomes an unsaved duplicate of the same bundle. The duplicate has a new uuid in range and the excluded fields emptied. Any other item is unchanged. At most one uuid is used |
| Paragraphs.CloneParagraphItemsCloned | quick_node_clone/src/Entity/QuickNodeCloneEntityFormBuilder.php:243-259 | Every item of the rewritten field is the rewrite of the item at the same position, with its uuid in the range the pass used |
| Paragraphs.CloneParagraphFieldsFrame | quick_node_clone/src/Entity/QuickNodeCloneEntityFormBuilder.php:237-262 | The definition loop leaves every field view that no paragraph-typed definition writes exactly as it was |
| Paragraphs.CloneParagraphFieldsCloned | quick_node_clone/src/Entity/QuickNodeCloneEntityFormBuilder.php:237-262 | Every paragraph-typed field of the language is rewritten item by item, when it is a non-empty item list |
| Paragraphs.ParagraphPassEffect | quick_node_clone/src/Entity/QuickNodeCloneEntityFormBuilder.php:236-265 | `cloneParagraphs` on one translation rewrites each paragraph field of that language. Every other view of the node is unchanged |
| Paragraphs.CloneParagraphItemsIncreasing | quick_node_clone/src/Entity/QuickNodeCloneEntityFormBuilder.php:243-259 | The duplicates the item loop creates carry uuids that strictly increase with their position, so no two are equal |
| Paragraphs.CloneParagraphFieldStep | quick_node_clone/src/Entity/QuickNodeCloneEntityFormBuilder.php:238-261 | After one paragraph-typed field is visited, it refers only to duplicates minted by the visit, each from a single position. No other field of the language changes |
| Paragraphs.CloneParagraphFieldsDistinct | quick_node_clone/src/Entity/QuickNodeCloneEntityFormBuilder.php:237-262 | Across the definition loop, every paragraph that a paragraph-typed field refers to was minted by the loop. No duplicate is referred to from two positions, in one field or in two |
| Paragraphs.ParagraphPassDistinct | quick_node_clone/src/Entity/QuickNodeCloneEntityFormBuilder.php:236-265 | `cloneParagraphs` on one translation: each duplicate's uuid lies in the range the pass used. Each duplicate sits at exactly one position of one paragraph field |
| Paragraphs.FieldClonedFresh | quick_node_clone/src/Entity/QuickNodeCloneEntityFormBuilder.php:245 | After the rewrite, a paragraph field refers only to paragraphs whose uuids the pass minted |
| InlineBlocks.IsInlineBlock | quick_node_clone/src/Entity/QuickNodeCloneEntityFormBuilder.php:299 | A component is an inline block when its plugin id names a derivative of `inline_block` |
| InlineBlocks.SerializedEmpty | quick_node_clone/src/Entity/QuickNodeCloneEntityFormBuilder.php:308 | PHP `empty()` on `block_serialized`: absent, NULL, "" or "0" |
| InlineBlocks.RevisionEmpty | quick_node_clone/src/Entity/QuickNodeCloneEntityFormBuilder.php:311 | PHP `empty()` on `block_revision_id`: absent, NULL or 0 |
| InlineBlocks.LoadRevision | quick_node_clone/src/Entity/QuickNodeCloneEntityFormBuilder.php:312-313 | `loadRevision()`: the stored block content of the revision, or NULL for an unknown one. `ResolveBlock` states its use |
| InlineBlocks.ResolveBlock | quick_node_clone/src/Entity/QuickNodeCloneEntityFormBuilder.php:306-314 | A non-empty serialized payload decides alone, and a corrupt one resolves to nothing. Otherwise a non-empty revision id is looked up. A block is found if and only if one of these succeeds |
| InlineBlocks.CloneComponent | quick_node_clone/src/Entity/QuickNodeCloneEntityFormBuilder.php:296-331 | A non-inline component stays as it is. An inline block gets a new uuid and keeps its region and additional data. A resolved block is replaced by a serialized duplicate with a new uuid and no revision id. At most two uuids are used |
| InlineBlocks.CloneComponents | quick_node_clone/src/Entity/QuickNodeCloneEntityFormBuilder.php:295-336 | The component loop as a function: one result component per component, with the counter never going back |
| InlineBlocks.CloneSection | quick_node_clone/src/Entity/QuickNodeCloneEntityFormBuilder.php:295-336 | A section keeps its layout id and settings, and its components are rewritten in order |
| InlineBlocks.CloneSections | quick_node_clone/src/Entity/QuickNodeCloneEntityFormBuilder.php:293-340 | The section loop as a function: one result section per section, with the counter never going back |
| InlineBlocks.InlineBlockPass | quick_node_clone/src/Entity/QuickNodeCloneEntityFormBuilder.php:279-343 | `cloneInlineBlocks` on one translation: the node keeps its shape and the counter never goes back |
| InlineBlocks.CloneComponentsCloned | quick_node_clone/src/Entity/QuickNodeCloneEntityFormBuilder.php:295-336 | Every component of the rewritten section is the rewrite of the component at the same position |
| InlineBlocks.CloneComponentsValid | quick_node_clone/src/Entity/QuickNodeCloneEntityFormBuilder.php:326-335 | The rewrite keeps a section keyed by uuid, with every uuid issued before the counter's new value |
| InlineBlocks.CloneSectionsCloned | quick_node_clone/src/Entity/QuickNodeCloneEntityFormBuilder.php:293-340 | Every rewritten section keeps its layout id and settings, and each of its components is the rewrite of the original at the same position |
| InlineBlocks.CloneSectionsValid | quick_node_clone/src/Entity/QuickNodeCloneEntityFormBuilder.php:293-340 | Every rewritten section stays keyed by uuid, below the counter's new value |
| InlineBlocks.FreshIdentities | quick_node_clone/src/Entity/QuickNodeCloneEntityFormBuilder.php:326-331 | No inline block of the rewritten layout reuses a component uuid of the original layout, neither for its component nor for its block copy |
| InlineBlocks.InlineBlockPassEffect | quick_node_clone/src/Entity/QuickNodeCloneEntityFormBuilder.php:279-343 | Without a non-empty layout, no change and no uuid used. Otherwise the language's layout is rewritten section by section. No other view changes, and every view sharing the field reads the new layout |
| InlineBlocks.InlineBlockPassFresh | quick_node_clone/src/Entity/QuickNodeCloneEntityFormBuilder.php:317-331 | After the pass, every inline block of the translation's layout owns only uuids the pass minted, for its component and for its block copy |
| InlineBlocks.CloneComponentIdentities | quick_node_clone/src/Entity/QuickNodeCloneEntityFormBuilder.php:303-331 | A rewritten inline block holds only identities minted for it. An unresolved block carries no serialized block, so it holds only its new uuid |
| InlineBlocks.CloneComponentsDistinct | quick_node_clone/src/Entity/QuickNodeCloneEntityFormBuilder.php:295-336 | Every identity that an inline block of the rewritten section holds was minted by the component loop. Each belongs to one position only |
| InlineBlocks.CloneSectionsDistinct | quick_node_clone/src/Entity/QuickNodeCloneEntityFormBuilder.php:293-340 | The same for the whole layout: each component uuid and block copy uuid belongs to one (section, component) position |
| InlineBlocks.InlineBlockPassDistinct | quick_node_clone/src/Entity/QuickNodeCloneEntityFormBuilder.php:279-343 | `cloneInlineBlocks` on one translation: every identity an inline block of the language's layout holds was minted by the pass, for one position only |
| InlineBlocks.InlineBlockPassValid | quick_node_clone/src/Entity/QuickNodeCloneEntityFormBuilder.php:293-340 | The pass keeps the translation's layout keyed by uuid |
| ClonePolicy.ApplyNodePolicy | quick_node_clone/src/Entity/QuickNodeCloneEntityFormBuilder.php:174-202 | The exclusion, status and title steps of one loop iteration, as a function |
| ClonePolicy.TranslationPass | quick_node_clone/src/Entity/QuickNodeCloneEntityFormBuilder.php:169-202 | One iteration of the language loop: paragraphs, inline blocks, then the policy steps |
| ClonePolicy.ClonePasses | quick_node_clone/src/Entity/QuickNodeCloneEntityFormBuilder.php:167-203 | The language loop as a fold of the translation pass over the languages, in order |
| ClonePolicy.Prepared | quick_node_clone/src/Entity/QuickNodeCloneEntityFormBuilder.php:146-150 | The duplicate with a new uuid and no id or revision, with the author and the three timestamps set. It keeps the original's definitions, languages, bundle and language |
| ClonePolicy.UnsetFields | quick_node_clone/src/Entity/QuickNodeCloneEntityFormBuilder.php:177-179 | The unset loop over the configured names, in order, keeping the node's shape. `UnsetFieldsEffect` states its effect |
| ClonePolicy.UnsetFieldsEffect | quick_node_clone/src/Entity/QuickNodeCloneEntityFormBuilder.php:175-180 | After the unset loop, a defined field among the names is empty in the affected views. Every other view is unchanged |
| ClonePolicy.ApplyNodePolicyEffect | quick_node_clone/src/Entity/QuickNodeCloneEntityFormBuilder.php:174-202 | Per view: the title becomes the prefix plus the title as it reads after exclusions. The status becomes the bundle default unless clone_status is set. An excluded field is emptied. Nothing outside the translation's storage changes |
| ClonePolicy.TranslationPassFrame | quick_node_clone/src/Entity/QuickNodeCloneEntityFormBuilder.php:169-202 | A field the pass does not touch, or one written only through another language, keeps its value |
| ClonePolicy.TranslationPassTitle | quick_node_clone/src/Entity/QuickNodeCloneEntityFormBuilder.php:193-202 | The title after one pass is the prefix followed by the translation's title before the pass |
| ClonePolicy.TranslationPassStatus | quick_node_clone/src/Entity/QuickNodeCloneEntityFormBuilder.php:187-191 | Without clone_status, the pass sets the status to the bundle default |
| ClonePolicy.TranslationPassExcluded | quick_node_clone/src/Entity/QuickNodeCloneEntityFormBuilder.php:175-180 | A configured exclusion that the pass does not overwrite afterwards is empty after the pass |
| ClonePolicy.TranslationPassLayout | quick_node_clone/src/Entity/QuickNodeCloneEntityFormBuilder.php:171 | One pass keeps a language's layout keyed by uuid and below the counter |
| ClonePolicy.TranslationPassFresh | quick_node_clone/src/Entity/QuickNodeCloneEntityFormBuilder.php:169-171 | After one pass the translation owns only paragraphs and inline blocks the pass minted. Other translations keep that property |
| ClonePolicy.ClonePassesFrame | quick_node_clone/src/Entity/QuickNodeCloneEntityFormBuilder.php:167-203 | A field no pass touches keeps its value through the whole language loop |
| ClonePolicy.ClonePassesTitles | quick_node_clone/src/Entity/QuickNodeCloneEntityFormBuilder.php:167-202 | With distinct languages and a translatable title, each translation's title ends as the prefix followed by its own original title, prefixed exactly once |
| ClonePolicy.ClonePassesStatus | quick_node_clone/src/Entity/QuickNodeCloneEntityFormBuilder.php:187-191 | Without clone_status, every translation ends with the bundle's default status |
| ClonePolicy.ClonePassesExcluded | quick_node_clone/src/Entity/QuickNodeCloneEntityFormBuilder.php:175-180 | A configured node exclusion is empty in every translation at the end of the loop. This excludes the title, and the status unless clone_status is set, because the source rewrites both afterwards |
| ClonePolicy.ClonePassesLayout | quick_node_clone/src/Entity/QuickNodeCloneEntityFormBuilder.php:293-340 | Every translation's layout stays keyed by uuid through the loop |
| ClonePolicy.ClonePassesFresh | quick_node_clone/src/Entity/QuickNodeCloneEntityFormBuilder.php:167-171 | Every translation the loop visits ends owning only paragraphs and inline blocks it minted |
| ClonePolicy.PreparedEffect | quick_node_clone/src/Entity/QuickNodeCloneEntityFormBuilder.php:146-150 | The duplicate reads like the original, except for the author and the three timestamps. Those are written through the language the original is held in |
| ClonePolicy.ClonedNode | quick_node_clone/src/Entity/QuickNodeCloneEntityFormBuilder.php:142-203 | The clone has the counter's first uuid, no id or revision, and the original's bundle, languages and definitions. The counter advances by at least one |
| ClonePolicy.ClonedUntouched | quick_node_clone/src/Entity/QuickNodeCloneEntityFormBuilder.php:146-202 | A field that no step touches reads in the clone as in the original, in every language |
| ClonePolicy.ClonedAuthorship | quick_node_clone/src/Entity/QuickNodeCloneEntityFormBuilder.php:147-150 | Unless a pass writes them, `uid` is the current user and the three timestamps are `now` |
| ClonePolicy.ClonedTitles | quick_node_clone/src/Entity/QuickNodeCloneEntityFormBuilder.php:182-202 | Every translation's title is the configured prefix followed by the original's title in that language |
| ClonePolicy.ClonedStatus | quick_node_clone/src/Entity/QuickNodeCloneEntityFormBuilder.php:187-191 | Without clone_status, every translation of the clone has the bundle's default status |
| ClonePolicy.ClonedExclusions | quick_node_clone/src/Entity/QuickNodeCloneEntityFormBuilder.php:174-180 | A configured node exclusion is empty in every translation of the clone. This excludes the title, and the status unless clone_status is set, because the source rewrites both afterwards |
| ClonePolicy.ClonedOwnsFreshEntities | quick_node_clone/src/Entity/QuickNodeCloneEntityFormBuilder.php:166-171 | In every visited translation, every paragraph and inline block the clone holds has a uuid minted after the clone's own |
| InlineBlocks.CorruptPayloadKeepsRevision | quick_node_clone/src/Entity/QuickNodeCloneEntityFormBuilder.php:306-317 | An inline block whose non-empty payload is not a serialized block keeps its whole configuration in the rewritten layout, so its `block_revision_id` still names the original's block revision |
| Settings.ExclusionKeysApart | quick_node_clone/src/Entity/QuickNodeCloneEntityFormBuilder.php:175 | The setting key for a bundle's node exclusions (line 175) and for a paragraph bundle's exclusions (line 357) never coincide, and each key names exactly one bundle |
| Settings.NodeExclusionKey | quick_node_clone/src/Entity/QuickNodeCloneEntityFormBuilder.php:175 | The setting that lists a node bundle's excluded fields. `ExclusionKeysApart` states that it names one bundle and is never a paragraph key |
| Settings.ParagraphExclusionKey | quick_node_clone/src/Entity/QuickNodeCloneEntityFormBuilder.php:357 | The setting that lists a paragraph bundle's excluded fields. `ExclusionKeysApart` states that it names one bundle and is never a node key |
| Entity.HasField | quick_node_clone/src/Entity/QuickNodeCloneEntityFormBuilder.php:282 | The node defines a field of that name. `UnsetFieldEmpties` and `GetSetField` state what writing an undefined name does |
| Entity.ParagraphTarget | quick_node_clone/src/Entity/QuickNodeCloneEntityFormBuilder.php:241 | The field's definition exists and its target type is `paragraph`. Only such fields are visited by the paragraph pass (`ParagraphPassEffect`) |
| Entity.ItemEmpty | quick_node_clone/src/Entity/QuickNodeCloneEntityFormBuilder.php:242 | A field item is empty when it is empty text, or a reference with neither a target id nor a loaded entity. A number is never empty |
| Nodes.Node.Get | quick_node_clone/src/Entity/QuickNodeCloneEntityFormBuilder.php:286-291 | The field view of the node object, read through a language. It is `Entity.Get` on the object's value, so `GetSetField` states its meaning |
| InlineBlocks.HasComponent | quick_node_clone/src/Entity/QuickNodeCloneEntityFormBuilder.php:334-335 | Some component of the section has the given uuid |
| InlineBlocks.IndexOf | quick_node_clone/src/Entity/QuickNodeCloneEntityFormBuilder.php:334-335 | The position of the first component with the given uuid: it is in range, holds that uuid, and no earlier component holds it |
| ClonePolicy.ClonedSharesNothing | quick_node_clone/src/Entity/QuickNodeCloneEntityFormBuilder.php:146-171 | If every identity of the original was issued before cloning started, then the clone holds no uuid of the original. This covers the clone's uuid, the paragraphs its paragraph fields refer to, and every inline block uuid and block copy uuid in its layouts, in every visited translation. Nested paragraph references, and a block revision kept by a corrupt payload, are outside it (see "Left out") |
| ClonePolicy.ClonedLayouts | quick_node_clone/src/Entity/QuickNodeCloneEntityFormBuilder.php:293-340 | Every layout of the clone is keyed by uuid, with every uuid issued before the counter's final value |

## Left out

- Building and returning the form (lines 205-212) is not modelled. Nor is resetting the
  address delta in the private temp store (lines 216-219). Both belong to the form API and
  session storage.
- Group lookup (lines 152-161) is not modelled. It only reads the group module's storage and
  stores the result for the form.
- The `cloned_node` and `cloned_node_paragraph_field` alter hooks are modelled as hooks that
  change nothing. Third-party code is not part of this model.
- `time()`, the current user's id and the bundle's default status are parameters. So is the
  revision storage that `loadRevision()` reads, and the uuid service is a counter. The
  throwaway node that `create()` builds at line 163 to read the default status also draws one
  uuid from the same service. The model's counter does not count that draw, so GetForm's
  counter ends one draw short of the source's. No property depends on it.
- ClonePolicy.Prepared: the source calls `time()` three times (lines 148-150). The model
  passes one `now` for all three. The calls can differ if a second boundary falls between
  them.
- Serialization is an abstract encoding, and the byte format is not modelled.
- InlineBlocks.ResolveBlock: a payload that is not a serialized block resolves to nothing, so
  the component keeps its configuration. This is a modelling choice. In PHP, such a string can
  unserialize to a truthy scalar, and then `createDuplicate()` (line 319) fails fatally. That
  failure is not modelled.
- `t('@prepend_text@title')` is plain concatenation. The HTML escaping of `@` placeholders is
  not modelled.
- A title whose first item is not text reads as the empty string, as PHP's NULL does once
  concatenated.
- Settings.ExcludeParagraphField: a truthy setting that is not a list yields NULL, which is
  PHP 7's `in_array` result. PHP 8 throws a TypeError instead. An absent key and a NULL value
  are the same here.
- `createDuplicate()` on a paragraph is modelled as a shallow copy. The module's loop does not
  descend into it. Any nested duplication done by the paragraph entity class is not modelled,
  so nested references stay shared in the model.
- ClonePolicy.ClonedSharesNothing: covers only the paragraphs the node's own fields refer to,
  because the paragraph duplicate is shallow in the model.
- ClonePolicy.ClonedSharesNothing: says nothing about revision ids. An inline block whose
  non-empty `block_serialized` is not a serialized block resolves to nothing and keeps its whole
  configuration, `block_revision_id` included (lines 308-317). So with a corrupt payload the
  clone still points at the original's block revision, as the source does.
  `InlineBlocks.CorruptPayloadKeepsRevision` states this.
- Paragraphs and block content are single-language records here. The source unsets an excluded
  paragraph field only in the paragraph's active translation (line 253), and createDuplicate()
  keeps every translation. So other translations of a translatable paragraph field keep the
  excluded value. The model does not capture those translations, which limits these members:
- Paragraphs.ClearExcludedFields: "excluded fields emptied" holds for the active translation only.
- Paragraphs.ClearExcludedFieldsExact: the same, for the active translation only.
- Paragraphs.CloneParagraphItem: the same, for the active translation only.
- QuickNodeClone.QuickNodeCloneEntityFormBuilder.ClearExcludedParagraphFields: the same, for
  the active translation only.
- Exclusions are applied to the duplicate before it is assigned to the item. The source
  assigns first and then unsets through the item. The stored result is the same.
- Component weights are not modelled: a section's components form an ordered sequence.
- Sections are rebuilt as new `Section` objects from the stored value. Aliasing between the
  field's section objects and the loop variable is not modelled.
- A layout field that holds a value of another kind is left alone.
- The source's nested loops are split into one method per loop body. Each `foreach` over an
  array snapshot is a loop over a copied sequence.
- QuickNodeClone.QuickNodeCloneEntityFormBuilder.GetForm:
  - It requires the node shape that the node entity type guarantees: one definition per field
    name, the base fields it writes, and layout, title and status not typed as paragraph
    references.
  - It requires every layout to be keyed by uuid with uuids issued before the counter. This
    stands for the uniqueness of v4 uuids.
  - It requires the node to have at least one translation language. A node always has its
    default language among them. With none, the source would use an undefined
    `$translated_node`.
  - The returned translation is a new object holding the clone's data. The sharing of
    storage between a node and its translation objects is not modelled.
- ClonePolicy.ClonedTitles: stated only for a translatable title with distinct languages. An
  untranslatable title is shared, so each translation's pass prefixes it again.
- ClonePolicy.ClonedAuthorship: stated for the language the original is held in, which is
  the language the values are written through. For an untranslatable field, every language
  reads the same value.

=== FILE: builder.dfy ===
/**
 * The form builder itself: getForm() and its helpers work on node and section objects in
 * place and draw identities from the uuid service. Each method is proved to leave exactly the
 * state the specification functions of the other modules describe.
 */
module QuickNodeClone {
  import opened Wrappers
  import opened Settings
  import opened Entity
  import opened Nodes
  import opened InlineBlocks
  import opened Paragraphs
  import opened ClonePolicy

  /** A list whose first part is done and whose rest is untouched, with its next element replaced. */
  lemma PrefixStep<T>(done: seq<T>, s: seq<T>, j: nat, x: T)
    requires j < |s|
    ensures var c := done + s[j..];
      |done| < |c| && c[|done|] == s[j] && c[|done| := x] == done + [x] + s[j + 1..]
  {
    assert s[j..] == [s[j]] + s[j + 1..];
  }

  // ---------------------------------------------------------------------------------------
  // The states each loop of the builder passes through: the list with its first `k` elements
  // rewritten and the rest as they were, and the uuid counter, for every `k`.

  function FieldStates(n: NodeData, lang: Langcode, defs: seq<FieldDefinition>, config: Config, next: nat): (r: seq<(NodeData, nat)>)
    ensures |r| == |defs| + 1 && r[0] == (n, next)
  {
    var r := seq(|defs| + 1, k requires 0 <= k <= |defs| => CloneParagraphFields(n, lang, defs[..k], config, next));
    assert defs[..0] == [];
    assert r[0] == CloneParagraphFields(n, lang, defs[..0], config, next);
    r
  }

  lemma FieldStatesStep(n: NodeData, lang: Langcode, defs: seq<FieldDefinition>, config: Config, next: nat, k: nat)
    requires k < |defs|
    ensures var r := FieldStates(n, lang, defs, config, next);
      r[k + 1] == CloneParagraphField(r[k].0, lang, defs[k], config, r[k].1)
  {
    assert defs[..k + 1][..k] == defs[..k];
  }

  lemma FieldStatesLast(n: NodeData, lang: Langcode, defs: seq<FieldDefinition>, config: Config, next: nat)
    ensures FieldStates(n, lang, defs, config, next)[|defs|] == CloneParagraphFields(n, lang, defs, config, next)
  {
    assert defs[..|defs|] == defs;
  }

  function ItemStates(items: seq<Item>, config: Config, next: nat): (r: seq<(seq<Item>, nat)>)
    ensures |r| == |items| + 1 && r[0] == (items, next)
  {
    var r := seq(|items| + 1, k requires 0 <= k <= |items| =>
      (CloneParagraphItems(items[..k], config, next).0 + items[k..], CloneParagraphItems(items[..k], config, next).1));
    assert items[..0] == [] && items[0..] == items;
    assert CloneParagraphItems(items[..0], config, next) == ([], next);
    assert CloneParagraphItems(items[..0], config, next).0 + items[0..] == items;
    assert r[0] == (CloneParagraphItems(items[..0], config, next).0 + items[0..], CloneParagraphItems(items[..0], config, next).1);
    r
  }

  lemma ItemStatesStep(items: seq<Item>, config: Config, next: nat, k: nat)
    requires k < |items|
    ensures var r := ItemStates(items, config, next);
      && |r[k].0| == |items| && r[k].0[k] == items[k]
      && r[k + 1] == (r[k].0[k := CloneParagraphItem(r[k].0[k], config, r[k].1).0], CloneParagraphItem(r[k].0[k], config, r[k].1).1)
  {
    var (init, mid) := CloneParagraphItems(items[..k], config, next);
    assert items[..k + 1][..k] == items[..k];
    PrefixStep(init, items, k, CloneParagraphItem(items[k], config, mid).0);
  }

  lemma ItemStatesLast(items: seq<Item>, config: Config, next: nat)
    ensures ItemStates(items, config, next)[|items|] == CloneParagraphItems(items, config, next)
  {
    var r := ItemStates(items, config, next);
    var done := CloneParagraphItems(items[..|items|], config, next);
    assert r[|items|] == (done.0 + items[|items|..], done.1);
    assert items[..|items|] == items && items[|items|..] == [];
    assert done.0 + items[|items|..] == done.0;
  }

  function SectionStates(sections: seq<SectionData>, revisions: map<nat, BlockContent>, next: nat): (r: seq<(seq<SectionData>, nat)>)
    ensures |r| == |sections| + 1 && r[0] == (sections, next)
  {
    var r := seq(|sections| + 1, k requires 0 <= k <= |sections| =>
      (CloneSections(sections[..k], revisions, next).0 + sections[k..], CloneSections(sections[..k], revisions, next).1));
    assert sections[..0] == [] && sections[0..] == sections;
    assert CloneSections(sections[..0], revisions, next) == ([], next);
    assert CloneSections(sections[..0], revisions, next).0 + sections[0..] == sections;
    assert r[0] == (CloneSections(sections[..0], revisions, next).0 + sections[0..], CloneSections(sections[..0], revisions, next).1);
    r
  }

  lemma SectionStatesStep(sections: seq<SectionData>, revisions: map<nat, BlockContent>, next: nat, k: nat)
    requires k < |sections|
    ensures var r := SectionStates(sections, revisions, next);
      && next <= r[k].1 && |r[k].0| == |sections| && r[k].0[k] == sections[k]
      && r[k + 1] == (r[k].0[k := CloneSection(r[k].0[k], revisions, r[k].1).0], CloneSection(r[k].0[k], revisions, r[k].1).1)
  {
    var (init, mid) := CloneSections(sections[..k], revisions, next);
    assert sections[..k + 1][..k] == sections[..k];
    PrefixStep(init, sections, k, CloneSection(sections[k], revisions, mid).0);
  }

  lemma SectionStatesLast(sections: seq<SectionData>, revisions: map<nat, BlockContent>, next: nat)
    ensures SectionStates(sections, revisions, next)[|sections|] == CloneSections(sections, revisions, next)
  {
    var r := SectionStates(sections, revisions, next);
    var done := CloneSections(sections[..|sections|], revisions, next);
    assert r[|sections|] == (done.0 + sections[|sections|..], done.1);
    assert sections[..|sections|] == sections && sections[|sections|..] == [];
    assert done.0 + sections[|sections|..] == done.0;
  }

  function ComponentStates(cs: seq<Component>, revisions: map<nat, BlockContent>, next: nat): (r: seq<(seq<Component>, nat)>)
    ensures |r| == |cs| + 1 && r[0] == (cs, next)
  {
    var r := seq(|cs| + 1, k requires 0 <= k <= |cs| =>
      (CloneComponents(cs[..k], revisions, next).0 + cs[k..], CloneComponents(cs[..k], revisions, next).1));
    assert cs[..0] == [] && cs[0..] == cs;
    assert CloneComponents(cs[..0], revisions, next) == ([], next);
    assert CloneComponents(cs[..0], revisions, next).0 + cs[0..] == cs;
    assert r[0] == (CloneComponents(cs[..0], revisions, next).0 + cs[0..], CloneComponents(cs[..0], revisions, next).1);
    r
  }

  lemma ComponentStatesStep(cs: seq<Component>, revisions: map<nat, BlockContent>, next: nat, k: nat)
    requires k < |cs|
    ensures var r := ComponentStates(cs, revisions, next);
      && k < |r[k].0| && r[k].0[k] == cs[k]
      && r[k + 1] == (r[k].0[k := CloneComponent(r[k].0[k], revisions, r[k].1).0], CloneComponent(r[k].0[k], revisions, r[k].1).1)
  {
    var (init, mid) := CloneComponents(cs[..k], revisions, next);
    assert cs[..k + 1][..k] == cs[..k];
    PrefixStep(init, cs, k, CloneComponent(cs[k], revisions, mid).0);
  }

  lemma ComponentStatesLast(cs: seq<Component>, revisions: map<nat, BlockContent>, next: nat)
    ensures ComponentStates(cs, revisions, next)[|cs|] == CloneComponents(cs, revisions, next)
  {
    var r := ComponentStates(cs, revisions, next);
    var done := CloneComponents(cs[..|cs|], revisions, next);
    assert r[|cs|] == (done.0 + cs[|cs|..], done.1);
    assert cs[..|cs|] == cs && cs[|cs|..] == [];
    assert done.0 + cs[|cs|..] == done.0;
  }

  /** In a list keyed by uuid, the first position holding a uuid is its only one. */
  lemma IndexOfUnique(cs: seq<Component>, j: nat)
    requires UniqueUuids(cs) && j < |cs|
    ensures HasComponent(cs, cs[j].uuid) && IndexOf(cs, cs[j].uuid) == j
  {
  }

  /** Putting `x` behind position `j` and then dropping position `j` puts `x` in its place. */
  lemma SpliceReplace<T>(s: seq<T>, j: nat, x: T)
    requires j < |s|
    ensures var inserted := s[..j + 1] + [x] + s[j + 1..];
      inserted[j] == s[j] && inserted[..j] + inserted[j + 1..] == s[..j] + [x] + s[j + 1..] == s[j := x]
  {
    var inserted := s[..j + 1] + [x] + s[j + 1..];
    assert inserted[..j] == s[..j];
    assert inserted[j + 1..] == [x] + s[j + 1..];
  }

  /** A component whose uuid is above every uuid of a keyed list keeps it keyed wherever it goes. */
  lemma InsertedUnique(cs: seq<Component>, j: nat, c: Component)
    requires UniqueUuids(cs) && UuidsBelow(cs, c.uuid) && j < |cs|
    ensures UniqueUuids(cs[..j + 1] + [c] + cs[j + 1..])
  {
    var inserted := cs[..j + 1] + [c] + cs[j + 1..];
    forall a, b | 0 <= a < b < |inserted| ensures inserted[a].uuid != inserted[b].uuid {
      if a == j + 1 {
        assert inserted[b] == cs[b - 1];
      } else if b == j + 1 {
        assert inserted[a] == cs[a];
      } else {
        assert inserted[a] == cs[if a <= j then a else a - 1];
        assert inserted[b] == cs[if b <= j then b else b - 1];
      }
    }
  }

  lemma ReplacedBelow(cs: seq<Component>, j: nat, c: Component)
    requires UuidsBelow(cs, c.uuid) && j < |cs|
    ensures UuidsBelow(cs[..j] + [c] + cs[j + 1..], c.uuid + 1)
  {
    var replaced := cs[..j] + [c] + cs[j + 1..];
    forall i | 0 <= i < |replaced| ensures replaced[i].uuid < c.uuid + 1 {
      if i != j {
        assert replaced[i] == cs[i];
      }
    }
  }

  /**
   * insertAfterComponent() of `c` behind position `j`, then removeComponent() of the component
   * at `j`, puts `c` in its place; `c`'s uuid is above every uuid already there.
   */
  lemma ReplaceInPlace(cs: seq<Component>, j: nat, c: Component)
    requires UniqueUuids(cs) && UuidsBelow(cs, c.uuid) && j < |cs|
    ensures HasComponent(cs, cs[j].uuid) && IndexOf(cs, cs[j].uuid) == j && !HasComponent(cs, c.uuid)
    ensures var inserted := cs[..j + 1] + [c] + cs[j + 1..];
      && UniqueUuids(inserted)
      && HasComponent(inserted, cs[j].uuid) && IndexOf(inserted, cs[j].uuid) == j
      && inserted[..j] + inserted[j + 1..] == cs[..j] + [c] + cs[j + 1..]
    ensures UuidsBelow(cs[..j] + [c] + cs[j + 1..], c.uuid + 1)
  {
    IndexOfUnique(cs, j);
    var inserted := cs[..j + 1] + [c] + cs[j + 1..];
    InsertedUnique(cs, j, c);
    SpliceReplace(cs, j, c);
    IndexOfUnique(inserted, j);
    ReplacedBelow(cs, j, c);
  }

  /**
   * insertAfterComponent() of the new component behind the one at `j`, then removeComponent()
   * of the one at `j`: the new component takes its place and the section stays keyed by uuid.
   */
  method ReplaceComponent(section: Section, j: nat, newComponent: Component)
    requires section.Valid() && j < |section.components|
    requires UuidsBelow(section.components, newComponent.uuid)
    requires section.components[j].region == newComponent.region
    modifies section
    ensures section.components == old(section.components)[j := newComponent]
    ensures section.Valid() && UuidsBelow(section.components, newComponent.uuid + 1)
  {
    ghost var current := section.components;
    var precedingUuid := section.components[j].uuid;
    ReplaceInPlace(current, j, newComponent);
    SpliceReplace(current, j, newComponent);
    section.InsertAfterComponent(precedingUuid, newComponent);
    section.RemoveComponent(precedingUuid);
  }

  /**
   * insertSection() of the rebuilt section at `delta`, then removeSection() of the old one,
   * now at `delta + 1`: the rebuilt section takes its place.
   */
  method ReplaceSection(node: Node, lang: Langcode, delta: nat, section: SectionData)
    requires node.Get(lang, LayoutFieldName).Layout? && delta < |node.Get(lang, LayoutFieldName).sections|
    modifies node
    ensures node.Value() == SetField(old(node.Value()), lang, LayoutFieldName,
                                     Layout(old(node.Get(lang, LayoutFieldName)).sections[delta := section]))
  {
    ghost var before := node.Value();
    var sections := node.Get(lang, LayoutFieldName).sections;
    ghost var inserted := InsertSectionAt(sections, delta, section);
    node.InsertSection(lang, delta, section);
    GetSetField(before, lang, LayoutFieldName, Layout(inserted), lang, LayoutFieldName);
    node.RemoveSection(lang, delta + 1);
    SetFieldTwice(before, lang, LayoutFieldName, Layout(inserted), Layout(RemoveSectionAt(inserted, delta + 1)));
    assert inserted[..delta + 1] == sections[..delta] + [section];
    assert RemoveSectionAt(inserted, delta + 1) == sections[delta := section];
  }

  /** The states getForm()'s loop passes through: before each language, and after the last. */
  function PassStates(n: NodeData, langs: seq<Langcode>, config: Config, revisions: map<nat, BlockContent>,
                      defaultStatus: int, next: nat): (r: seq<(NodeData, nat)>)
    ensures |r| == |langs| + 1 && r[0] == (n, next)
  {
    if langs == [] then [(n, next)]
    else
      var init := PassStates(n, langs[..|langs| - 1], config, revisions, defaultStatus, next);
      init + [TranslationPass(init[|langs| - 1].0, langs[|langs| - 1], config, revisions, defaultStatus, init[|langs| - 1].1)]
  }

  lemma {:induction false} PassStatesStep(n: NodeData, langs: seq<Langcode>, config: Config, revisions: map<nat, BlockContent>,
                                          defaultStatus: int, next: nat, k: nat)
    requires k < |langs|
    ensures var r := PassStates(n, langs, config, revisions, defaultStatus, next);
      r[k + 1] == TranslationPass(r[k].0, langs[k], config, revisions, defaultStatus, r[k].1)
  {
    if k < |langs| - 1 {
      var init := langs[..|langs| - 1];
      PassStatesStep(n, init, config, revisions, defaultStatus, next, k);
      assert init[k] == langs[k];
    }
  }

  lemma {:induction false} PassStatesLast(n: NodeData, langs: seq<Langcode>, config: Config, revisions: map<nat, BlockContent>,
                                          defaultStatus: int, next: nat)
    ensures PassStates(n, langs, config, revisions, defaultStatus, next)[|langs|] == ClonePasses(n, langs, config, revisions, defaultStatus, next)
  {
    if langs != [] {
      PassStatesLast(n, langs[..|langs| - 1], config, revisions, defaultStatus, next);
    }
  }

  class QuickNodeCloneEntityFormBuilder {
    /** The module's settings object (quick_node_clone.settings). */
    const config: Config
    /** The block_content revisions loadRevision() can find. */
    const blockRevisions: map<nat, BlockContent>
    /** The current user's id. */
    const currentUser: nat
    /** The uuid service. */
    const uuid: UuidService

    constructor (config: Config, blockRevisions: map<nat, BlockContent>, currentUser: nat, uuid: UuidService)
      ensures this.config == config && this.blockRevisions == blockRevisions
      ensures this.currentUser == currentUser && this.uuid == uuid
    {
      this.config, this.blockRevisions := config, blockRevisions;
      this.currentUser, this.uuid := currentUser, uuid;
    }


    /**
     * getForm(): duplicate the node, stamp author and times, and run the paragraph, inline
     * block, exclusion, status and title steps on every translation. The node handed to the
     * edit form is the translation the loop visited last. `now` is time() and
     * `defaultBundleStatus` the status a new node of the bundle gets.
     */
    method GetForm(originalEntity: Node, now: int, defaultBundleStatus: int) returns (clone: Node)
      requires originalEntity.languages != []
      requires WellFormed(originalEntity.Value()) && HasBaseFields(originalEntity.Value())
      requires LayoutsValid(originalEntity.Value(), uuid.next)
      modifies uuid
      ensures fresh(clone)
      ensures originalEntity.Value() == old(originalEntity.Value())
      ensures clone.Value() ==
        ClonedNode(old(originalEntity.Value()), config, blockRevisions, defaultBundleStatus, currentUser, now, old(uuid.next)).0
          .(langcode := originalEntity.languages[|originalEntity.languages| - 1])
      ensures uuid.next ==
        ClonedNode(old(originalEntity.Value()), config, blockRevisions, defaultBundleStatus, currentUser, now, old(uuid.next)).1
    {
      ghost var original := originalEntity.Value();
      ghost var start := uuid.next;
      ghost var r := ClonedNode(original, config, blockRevisions, defaultBundleStatus, currentUser, now, start);
      var newNode := PrepareDuplicate(originalEntity, now);
      CloneTranslations(newNode, defaultBundleStatus, original, start, now);
      assert newNode.Value() == r.0 && uuid.next == r.1;
      clone := newNode.GetTranslation(newNode.languages[|newNode.languages| - 1]);
    }

    /** The start of getForm(): the duplicate, with the current user as author and `now` as every timestamp. */
    method PrepareDuplicate(originalEntity: Node, now: int) returns (newNode: Node)
      requires WellFormed(originalEntity.Value()) && HasBaseFields(originalEntity.Value())
      requires LayoutsValid(originalEntity.Value(), uuid.next)
      modifies uuid
      ensures fresh(newNode) && uuid.next == old(uuid.next) + 1
      ensures newNode.Value() == Prepared(old(originalEntity.Value()), old(uuid.next), currentUser, now)
      ensures originalEntity.Value() == old(originalEntity.Value())
      ensures WellFormed(newNode.Value()) && HasBaseFields(newNode.Value())
      ensures LayoutsValid(newNode.Value(), uuid.next)
    {
      ghost var original := originalEntity.Value();
      ghost var start := uuid.next;
      newNode := originalEntity.CreateDuplicate(uuid);
      var l := newNode.langcode;
      newNode.Set(l, UserField, Items([Number(currentUser)]));
      newNode.Set(l, CreatedField, Items([Number(now)]));
      newNode.Set(l, ChangedField, Items([Number(now)]));
      newNode.Set(l, RevisionTimestampField, Items([Number(now)]));
      assert newNode.Value() == Prepared(original, start, currentUser, now);
      PreparedLayouts(original, start, currentUser, now);
    }

    /** getForm()'s loop over the translation languages of the duplicate. */
    method CloneTranslations(node: Node, defaultBundleStatus: int, ghost original: NodeData, ghost start: nat, ghost now: int)
      requires node.Value() == Prepared(original, start, currentUser, now) && uuid.next == start + 1
      requires WellFormed(node.Value()) && HasBaseFields(node.Value())
      requires LayoutsValid(node.Value(), uuid.next)
      modifies node, uuid
      ensures (node.Value(), uuid.next) == ClonedNode(original, config, blockRevisions, defaultBundleStatus, currentUser, now, start)
    {
      var languages := node.languages;
      ghost var states := PassStates(node.Value(), languages, config, blockRevisions, defaultBundleStatus, uuid.next);
      var i := 0;
      while i < |languages|
        invariant i <= |languages|
        invariant (node.Value(), uuid.next) == states[i]
        invariant WellFormed(node.Value()) && HasBaseFields(node.Value()) && LayoutsValid(node.Value(), uuid.next)
      {
        PassStatesStep(states[0].0, languages, config, blockRevisions, defaultBundleStatus, states[0].1, i);
        CloneTranslation(node, languages[i], defaultBundleStatus);
        i := i + 1;
      }
      PassStatesLast(states[0].0, languages, config, blockRevisions, defaultBundleStatus, states[0].1);
    }

    /** One iteration of getForm()'s loop over the translation languages. */
    method CloneTranslation(node: Node, langcode: Langcode, defaultBundleStatus: int)
      requires WellFormed(node.Value()) && HasBaseFields(node.Value())
      requires LayoutsValid(node.Value(), uuid.next)
      modifies node, uuid
      ensures (node.Value(), uuid.next) == TranslationPass(old(node.Value()), langcode, config, blockRevisions, defaultBundleStatus, old(uuid.next))
      ensures WellFormed(node.Value()) && HasBaseFields(node.Value()) && LayoutsValid(node.Value(), uuid.next)
    {
      ghost var before := node.Value();
      ghost var counter := uuid.next;
      assert LayoutValid(Sections(node.Get(langcode, LayoutFieldName)), counter);
      CloneParagraphs(node, langcode);
      ParagraphPassEffect(before, langcode, config, counter);
      assert node.Get(langcode, LayoutFieldName) == Entity.Get(before, langcode, LayoutFieldName);
      LayoutValidWiden(Sections(Entity.Get(before, langcode, LayoutFieldName)), counter, uuid.next);
      CloneInlineBlocks(node, langcode);
      // The cloned_node alter hook is a no-op in this model.
      ApplyPolicy(node, langcode, defaultBundleStatus);
      TranslationPassLayouts(before, langcode, config, blockRevisions, defaultBundleStatus, counter);
    }

    /**
     * The rest of getForm()'s loop body on one translation: unset the excluded fields, reset
     * the status unless clone_status is set, and prefix the title.
     */
    method ApplyPolicy(node: Node, langcode: Langcode, defaultBundleStatus: int)
      requires HasField(node.Value(), PublishedKey) && HasField(node.Value(), TitleFieldName)
      modifies node
      ensures node.Value() == ApplyNodePolicy(old(node.Value()), langcode, config, defaultBundleStatus)
    {
      ghost var afterBlocks := node.Value();
      var excludeFields := ExcludedNodeFields(config, node.bundle);
      var k := 0;
      while k < |excludeFields|
        invariant k <= |excludeFields|
        invariant node.Value() == UnsetFields(afterBlocks, langcode, excludeFields[..k])
      {
        node.Unset(langcode, excludeFields[k]);
        assert excludeFields[..k + 1][..k] == excludeFields[..k];
        k := k + 1;
      }
      assert excludeFields[..k] == excludeFields;

      var prependText := TitlePrefix(config);
      if !KeepsStatus(config) {
        node.Set(langcode, PublishedKey, Items([Number(defaultBundleStatus)]));
      }
      node.Set(langcode, TitleFieldName, Items([Item.Text(prependText + Title(node.Value(), langcode))]));
    }

    /**
     * cloneParagraphs() on one translation: every loaded paragraph of a non-empty paragraph
     * field is replaced by a duplicate with the excluded fields emptied.
     */
    method CloneParagraphs(node: Node, lang: Langcode)
      modifies node, uuid
      ensures (node.Value(), uuid.next) == ParagraphPass(old(node.Value()), lang, config, old(uuid.next))
    {
      var definitions := node.definitions;
      ghost var states := FieldStates(node.Value(), lang, definitions, config, uuid.next);
      var i := 0;
      while i < |definitions|
        invariant i <= |definitions|
        invariant (node.Value(), uuid.next) == states[i]
      {
        FieldStatesStep(states[0].0, lang, definitions, config, states[0].1, i);
        VisitParagraphField(node, lang, definitions[i]);
        i := i + 1;
      }
      FieldStatesLast(states[0].0, lang, definitions, config, states[0].1);
    }

    /** The body of that loop for one field definition. */
    method VisitParagraphField(node: Node, lang: Langcode, fieldDefinition: FieldDefinition)
      modifies node, uuid
      ensures (node.Value(), uuid.next) == CloneParagraphField(old(node.Value()), lang, fieldDefinition, config, old(uuid.next))
    {
      if fieldDefinition.targetType == Some("paragraph") {
        var field := node.Get(lang, fieldDefinition.name);
        if !IsEmpty(field) && field.Items? {
          CloneFieldParagraphs(node, lang, fieldDefinition.name, field.items);
        }
      }
    }

    /** The loop over the items of one non-empty paragraph field, which holds `items`. */
    method CloneFieldParagraphs(node: Node, lang: Langcode, fieldName: string, items: seq<Item>)
      requires node.Get(lang, fieldName) == Items(items) && !IsEmpty(Items(items))
      modifies node, uuid
      ensures node.Value() == SetField(old(node.Value()), lang, fieldName, Items(CloneParagraphItems(items, config, old(uuid.next)).0))
      ensures uuid.next == CloneParagraphItems(items, config, old(uuid.next)).1
    {
      ghost var before := node.Value();
      ghost var states := ItemStates(items, config, uuid.next);
      SetFieldSame(before, lang, fieldName);
      var k := 0;
      while k < |items|
        invariant k <= |items|
        invariant node.Value() == SetField(before, lang, fieldName, Items(states[k].0)) && uuid.next == states[k].1
      {
        ItemStatesStep(items, config, states[0].1, k);
        GetSetField(before, lang, fieldName, Items(states[k].0), lang, fieldName);
        CloneParagraphAt(node, lang, fieldName, k);
        SetFieldTwice(before, lang, fieldName, Items(states[k].0), Items(states[k + 1].0));
        k := k + 1;
      }
      ItemStatesLast(items, config, states[0].1);
    }

    /** The body of that loop for item `delta`: a loaded paragraph is replaced by its cleared duplicate. */
    method CloneParagraphAt(node: Node, lang: Langcode, fieldName: string, delta: nat)
      requires node.Get(lang, fieldName).Items? && delta < |node.Get(lang, fieldName).items|
      modifies node, uuid
      ensures var r := CloneParagraphItem(old(node.Get(lang, fieldName)).items[delta], config, old(uuid.next));
        && node.Value() == SetField(old(node.Value()), lang, fieldName, Items(old(node.Get(lang, fieldName)).items[delta := r.0]))
        && uuid.next == r.1
    {
      var value := node.Get(lang, fieldName).items[delta];
      if value.Ref? && value.entity.Some? {
        var duplicateUuid := uuid.Generate();
        var duplicate := DuplicateSubEntity(value.entity.value, duplicateUuid);
        duplicate := ClearExcludedParagraphFields(duplicate);
        node.SetReference(lang, fieldName, delta, duplicate);
      } else {
        assert node.Get(lang, fieldName).items[delta := value] == node.Get(lang, fieldName).items;
        SetFieldSame(node.Value(), lang, fieldName);
      }
    }

    /**
     * The loop over a duplicated paragraph's fields: every field the exclusion check answers
     * TRUE for is unset.
     */
    method ClearExcludedParagraphFields(p: SubEntity) returns (q: SubEntity)
      ensures q == ClearExcludedFields(p, config)
    {
      q := p;
      var remaining := p.fields.Keys;
      while remaining != {}
        invariant remaining <= p.fields.Keys
        invariant q.id == p.id && q.revisionId == p.revisionId && q.uuid == p.uuid && q.bundle == p.bundle
        invariant q.fields.Keys == p.fields.Keys
        invariant forall f :: f in q.fields ==>
          q.fields[f] == if f !in remaining && ParagraphFieldExcluded(config, f, p.bundle) then Cleared(p.fields[f]) else p.fields[f]
        decreases remaining
      {
        var fieldName :| fieldName in remaining;
        if ExcludeParagraphField(config, fieldName, q.bundle) == Some(true) {
          q := q.(fields := q.fields[fieldName := Cleared(q.fields[fieldName])]);
        }
        remaining := remaining - {fieldName};
      }
      assert q.fields == ClearExcludedFields(p, config).fields;
    }

    /**
     * cloneInlineBlocks() on one translation: each section is rebuilt with its inline block
     * components replaced, then put back at its own delta.
     */
    method CloneInlineBlocks(node: Node, lang: Langcode)
      requires LayoutValid(Sections(node.Get(lang, LayoutFieldName)), uuid.next)
      modifies node, uuid
      ensures (node.Value(), uuid.next) == InlineBlockPass(old(node.Value()), lang, blockRevisions, old(uuid.next))
    {
      if !HasField(node.Value(), LayoutFieldName) {
        return;
      }
      if IsEmpty(node.Get(lang, LayoutFieldName)) {
        return;
      }
      var layoutField := node.Get(lang, LayoutFieldName);
      if !layoutField.Layout? {
        return;
      }
      CloneLayoutSections(node, lang, layoutField.sections);
    }

    /** The loop over the sections of a non-empty layout field, which holds `sections`. */
    method CloneLayoutSections(node: Node, lang: Langcode, sections: seq<SectionData>)
      requires node.Get(lang, LayoutFieldName) == Layout(sections) && sections != []
      requires LayoutValid(sections, uuid.next)
      modifies node, uuid
      ensures node.Value() == SetField(old(node.Value()), lang, LayoutFieldName, Layout(CloneSections(sections, blockRevisions, old(uuid.next)).0))
      ensures uuid.next == CloneSections(sections, blockRevisions, old(uuid.next)).1
    {
      ghost var v0 := node.Value();
      ghost var start := uuid.next;
      ghost var states := SectionStates(sections, blockRevisions, start);
      SetFieldSame(v0, lang, LayoutFieldName);
      var sid := 0;
      while sid < |sections|
        invariant sid <= |sections|
        invariant node.Value() == SetField(v0, lang, LayoutFieldName, Layout(states[sid].0)) && uuid.next == states[sid].1
      {
        SectionStatesStep(sections, blockRevisions, start, sid);
        LayoutValidWiden(sections, start, uuid.next);
        CloneSectionAt(node, lang, sid, v0, states[sid].0);
        sid := sid + 1;
      }
      // Loop exit: the last state is the whole rewrite.
      SectionStatesLast(sections, blockRevisions, start);
      assert states[|sections|] == CloneSections(sections, blockRevisions, start);
    }

    /**
     * The body of that loop for the section at `sid`: a section object is rebuilt from it,
     * its inline blocks are replaced, and it is put back at its own delta.
     */
    method CloneSectionAt(node: Node, lang: Langcode, sid: nat, ghost base: NodeData, ghost laidOut: seq<SectionData>)
      requires node.Value() == SetField(base, lang, LayoutFieldName, Layout(laidOut)) && sid < |laidOut|
      requires UniqueUuids(laidOut[sid].components) && UuidsBelow(laidOut[sid].components, uuid.next)
      modifies node, uuid
      ensures var r := CloneSection(laidOut[sid], blockRevisions, old(uuid.next));
        node.Value() == SetField(base, lang, LayoutFieldName, Layout(laidOut[sid := r.0])) && uuid.next == r.1
    {
      GetSetField(base, lang, LayoutFieldName, Layout(laidOut), lang, LayoutFieldName);
      var section := new Section(node.Get(lang, LayoutFieldName).sections[sid]);
      CloneSectionComponents(section);
      ReplaceSection(node, lang, sid, section.Value());
      SetFieldTwice(base, lang, LayoutFieldName, Layout(laidOut), Layout(laidOut[sid := section.Value()]));
    }

    /**
     * The body of that loop for an inline block: load its block content (from the serialized
     * payload, else from the revision), store a duplicate of it serialized in place of the
     * revision id, and wrap the configuration in a component with a new uuid.
     */
    method CloneInlineBlock(component: Component) returns (newComponent: Component)
      requires IsInlineBlock(component)
      modifies uuid
      ensures (newComponent, uuid.next) == CloneComponent(component, blockRevisions, old(uuid.next))
      ensures newComponent.region == component.region && old(uuid.next) <= newComponent.uuid < uuid.next
    {
      var configuration := component.configuration;
      var blockContent: Option<BlockContent> := None;
      if !SerializedEmpty(configuration.blockSerialized) {
        blockContent := Decode(configuration.blockSerialized.value);
      } else if !RevisionEmpty(configuration.blockRevisionId) {
        blockContent := LoadRevision(blockRevisions, configuration.blockRevisionId.value);
      }
      if blockContent.Some? {
        var duplicateUuid := uuid.Generate();
        var clonedBlockContent := DuplicateBlock(blockContent.value, duplicateUuid);
        configuration := configuration.(blockRevisionId := None, blockSerialized := Some(Encode(clonedBlockContent)));
      }
      var newUuid := uuid.Generate();
      newComponent := Component(newUuid, component.region, configuration, component.additional);
    }

    /** The body of that loop for the component at `j`: an inline block is replaced in place by its clone. */
    method CloneComponentAt(section: Section, j: nat)
      requires section.Valid() && UuidsBelow(section.components, uuid.next) && j < |section.components|
      modifies section, uuid
      ensures var r := CloneComponent(old(section.components)[j], blockRevisions, old(uuid.next));
        section.components == old(section.components)[j := r.0] && uuid.next == r.1
      ensures section.Valid() && UuidsBelow(section.components, uuid.next)
    {
      var component := section.components[j];
      if !IsInlineBlock(component) {
        return;
      }
      var newComponent := CloneInlineBlock(component);
      ReplaceComponent(section, j, newComponent);
    }

    /**
     * The loop over one section's components: every inline block is replaced, right where it
     * stands, by a component with a new uuid whose configuration carries a serialized
     * duplicate of the block content (when there is one to load).
     */
    method CloneSectionComponents(section: Section)
      requires section.Valid() && UuidsBelow(section.components, uuid.next)
      modifies section, uuid
      ensures (section.Value(), uuid.next) == CloneSection(old(section.Value()), blockRevisions, old(uuid.next))
    {
      var components := section.components;
      ghost var states := ComponentStates(components, blockRevisions, uuid.next);
      var j := 0;
      while j < |components|
        invariant j <= |components|
        invariant (section.components, uuid.next) == states[j]
        invariant section.Valid() && UuidsBelow(section.components, uuid.next)
      {
        ComponentStatesStep(components, blockRevisions, states[0].1, j);
        CloneComponentAt(section, j);
        j := j + 1;
      }
      ComponentStatesLast(components, blockRevisions, states[0].1);
    }
  }
}

=== FILE: entity.dfy ===
/**
 * The entity graph the cloner works on, as values: a node with translatable and shared
 * (untranslatable) field values, the paragraph-like sub-entities its reference items point to,
 * and the layout sections whose components may carry inline block content.
 */
module Entity {
  import opened Wrappers

  /** Identities issued by the uuid service; a counter stands for the v4 generator. */
  type Uuid = nat
  type Langcode = string

  const LayoutFieldName := "layout_builder__layout"
  /** The node entity type's `published` key. */
  const PublishedKey := "status"
  const TitleFieldName := "title"

  /** A block_content entity, as loaded by revision or restored from a serialized payload. */
  datatype BlockContent = BlockContent(id: Option<nat>, revisionId: Option<nat>, uuid: Uuid, fields: map<string, string>)

  /**
   * The value stored under `block_serialized`: either the serialization of a block, or any
   * other string (which does not decode to a block).
   */
  datatype Blob = Serialized(block: BlockContent) | Raw(text: string)

  /** The configuration array of a section component; absent and NULL entries are both None. */
  datatype BlockConfiguration = BlockConfiguration(
    pluginId: string,
    blockSerialized: Option<Blob>,
    blockRevisionId: Option<nat>,
    other: map<string, string>)

  datatype Component = Component(uuid: Uuid, region: string, configuration: BlockConfiguration, additional: map<string, string>)

  datatype SectionData = SectionData(layoutId: string, layoutSettings: map<string, string>, components: seq<Component>)

  datatype Item =
    | Text(text: string)
    | Number(number: int)
      /** An entity reference item: the stored target id and the loaded target, if any. */
    | Ref(targetId: Option<nat>, entity: Option<SubEntity>)

  /** A field item list: ordinary items, or the sections of a layout field. */
  datatype FieldValue = Items(items: seq<Item>) | Layout(sections: seq<SectionData>)

  /** A referenced content entity (a paragraph, or a shared target such as a term). */
  datatype SubEntity = SubEntity(id: Option<nat>, revisionId: Option<nat>, uuid: Uuid, bundle: string, fields: map<string, FieldValue>)

  datatype FieldDefinition = FieldDefinition(name: string, targetType: Option<string>, translatable: bool)

  /**
   * A node: its field definitions in order, its translation languages in order, the values
   * of untranslatable fields (stored once) and those of translatable fields (per language).
   * `langcode` is the language of the object the caller holds.
   */
  datatype NodeData = NodeData(
    id: Option<nat>,
    revisionId: Option<nat>,
    uuid: Uuid,
    bundle: string,
    langcode: Langcode,
    definitions: seq<FieldDefinition>,
    languages: seq<Langcode>,
    shared: map<string, FieldValue>,
    translated: map<Langcode, map<string, FieldValue>>)

  // ---------------------------------------------------------------------------------------
  // Serialization of block content

  function Encode(b: BlockContent): Blob
  {
    Serialized(b)
  }

  /** unserialize(): the block, or nothing for a string that is not a serialized block. */
  function Decode(blob: Blob): Option<BlockContent>
  {
    match blob
    case Serialized(b) => Some(b)
    case Raw(_) => None
  }

  lemma DecodeEncode(b: BlockContent)
    ensures Decode(Encode(b)) == Some(b)
  {
  }

  // ---------------------------------------------------------------------------------------
  // createDuplicate(): the same field values under a fresh uuid, with no id and no revision

  function DuplicateNode(n: NodeData, newUuid: Uuid): (r: NodeData)
    ensures r.uuid == newUuid && r.id.None? && r.revisionId.None?
    ensures forall lang, name :: Get(r, lang, name) == Get(n, lang, name)
  {
    n.(id := None, revisionId := None, uuid := newUuid)
  }

  function DuplicateBlock(b: BlockContent, newUuid: Uuid): (r: BlockContent)
    ensures r.uuid == newUuid && r.id.None? && r.revisionId.None? && r.fields == b.fields
  {
    b.(id := None, revisionId := None, uuid := newUuid)
  }

  function DuplicateSubEntity(p: SubEntity, newUuid: Uuid): (r: SubEntity)
    ensures r.uuid == newUuid && r.id.None? && r.revisionId.None? && r.bundle == p.bundle && r.fields == p.fields
  {
    p.(id := None, revisionId := None, uuid := newUuid)
  }

  // ---------------------------------------------------------------------------------------
  // The section list of a layout field (insertSection / removeSection)

  /** insertSection(delta, s): splice before `delta`, or append when there is no such section. */
  function InsertSectionAt(sections: seq<SectionData>, delta: nat, s: SectionData): (r: seq<SectionData>)
    ensures |r| == |sections| + 1
    ensures delta < |sections| ==> r[delta] == s && r[..delta] == sections[..delta] && r[delta + 1..] == sections[delta..]
    ensures delta >= |sections| ==> r == sections + [s]
  {
    if delta < |sections| then sections[..delta] + [s] + sections[delta..] else sections + [s]
  }

  /** removeSection(delta): drop the section at `delta` and renumber the rest. */
  function RemoveSectionAt(sections: seq<SectionData>, delta: nat): (r: seq<SectionData>)
    ensures delta < |sections| ==> |r| == |sections| - 1 && r[..delta] == sections[..delta] && r[delta..] == sections[delta + 1..]
    ensures delta >= |sections| ==> r == sections
  {
    if delta < |sections| then sections[..delta] + sections[delta + 1..] else sections
  }

  // ---------------------------------------------------------------------------------------
  // Emptiness and clearing of field values

  /** The item's own isEmpty(): an empty string, or a reference with neither id nor target. */
  predicate ItemEmpty(item: Item)
  {
    match item
    case Text(s) => s == ""
    case Number(_) => false
    case Ref(targetId, entity) => targetId.None? && entity.None?
  }

  /** FieldItemList::isEmpty(): every item is empty. */
  predicate IsEmpty(v: FieldValue)
  {
    match v
    case Items(items) => forall i :: 0 <= i < |items| ==> ItemEmpty(items[i])
    case Layout(sections) => sections == []
  }

  /** The value left by `set($name, NULL)`: an empty list of the same kind. */
  function Cleared(v: FieldValue): (r: FieldValue)
    ensures IsEmpty(r) && r.Layout? == v.Layout?
  {
    match v
    case Items(_) => Items([])
    case Layout(_) => Layout([])
  }

  // ---------------------------------------------------------------------------------------
  // Field definitions and field access

  /** The definition of the field `name`, the first one when several carry it. */
  function Definition(defs: seq<FieldDefinition>, name: string): (r: Option<FieldDefinition>)
    ensures r.Some? ==> r.value in defs && r.value.name == name
    ensures r.None? ==> forall i :: 0 <= i < |defs| ==> defs[i].name != name
  {
    if defs == [] then None
    else if defs[0].name == name then Some(defs[0])
    else Definition(defs[1..], name)
  }

  predicate HasField(n: NodeData, name: string)
  {
    Definition(n.definitions, name).Some?
  }

  predicate Translatable(n: NodeData, name: string)
  {
    Definition(n.definitions, name).Some? && Definition(n.definitions, name).value.translatable
  }

  /** Whether the field's storage settings name `paragraph` as target type. */
  predicate ParagraphTarget(n: NodeData, name: string)
  {
    Definition(n.definitions, name).Some? && Definition(n.definitions, name).value.targetType == Some("paragraph")
  }

  /** `getTranslation(lang)->get(name)`: a field that holds nothing reads as an empty list. */
  function Get(n: NodeData, lang: Langcode, name: string): FieldValue
  {
    if Translatable(n, name) then
      if lang in n.translated && name in n.translated[lang] then n.translated[lang][name] else Items([])
    else
      if name in n.shared then n.shared[name] else Items([])
  }

  /** Two states of one node object: only field values may differ. */
  predicate SameShape(a: NodeData, b: NodeData)
  {
    && a.definitions == b.definitions && a.languages == b.languages && a.bundle == b.bundle
    && a.uuid == b.uuid && a.id == b.id && a.revisionId == b.revisionId && a.langcode == b.langcode
  }

  /** `getTranslation(lang)->set(name, v)`: writes the language's copy or the shared one. */
  function SetField(n: NodeData, lang: Langcode, name: string, v: FieldValue): (r: NodeData)
    ensures SameShape(r, n)
  {
    if Translatable(n, name) then
      var values := if lang in n.translated then n.translated[lang] else map[];
      n.(translated := n.translated[lang := values[name := v]])
    else
      n.(shared := n.shared[name := v])
  }

  /** `unset($translation->{$name})`: empties a defined field, and does nothing otherwise. */
  function UnsetField(n: NodeData, lang: Langcode, name: string): (r: NodeData)
    ensures SameShape(r, n)
  {
    if HasField(n, name) then SetField(n, lang, name, Cleared(Get(n, lang, name))) else n
  }

  /** The languages whose view of `name` a write through `lang` changes. */
  predicate Affects(n: NodeData, lang: Langcode, name: string, lang': Langcode, name': string)
  {
    name' == name && (lang' == lang || !Translatable(n, name))
  }

  /** `getTitle()`: the first title item's text, or NULL (the empty string once concatenated). */
  function Title(n: NodeData, lang: Langcode): string
  {
    var v := Get(n, lang, TitleFieldName);
    if v.Items? && |v.items| > 0 && v.items[0].Text? then v.items[0].text else ""
  }

  /** The sections of a layout field (a field of another kind has none). */
  function Sections(v: FieldValue): seq<SectionData>
  {
    if v.Layout? then v.sections else []
  }

  // ---------------------------------------------------------------------------------------
  // Laws of field access

  lemma GetSetField(n: NodeData, lang: Langcode, name: string, v: FieldValue, lang': Langcode, name': string)
    ensures Get(SetField(n, lang, name, v), lang', name') ==
      if Affects(n, lang, name, lang', name') then v else Get(n, lang', name')
  {
  }

  lemma SetFieldTwice(n: NodeData, lang: Langcode, name: string, v1: FieldValue, v2: FieldValue)
    ensures SetField(SetField(n, lang, name, v1), lang, name, v2) == SetField(n, lang, name, v2)
  {
    if Translatable(n, name) {
      var values := if lang in n.translated then n.translated[lang] else map[];
      var n1 := SetField(n, lang, name, v1);
      assert Translatable(n1, name);
      assert n1.translated[lang][name := v2] == values[name := v2];
      assert n1.translated[lang := values[name := v2]] == n.translated[lang := values[name := v2]];
    }
  }

  /** Writing back the value a field holds changes nothing, once it reads as more than the empty default. */
  lemma SetFieldSame(n: NodeData, lang: Langcode, name: string)
    requires Get(n, lang, name) != Items([])
    ensures SetField(n, lang, name, Get(n, lang, name)) == n
  {
    if Translatable(n, name) {
      assert lang in n.translated && name in n.translated[lang];
      assert n.translated[lang][name := Get(n, lang, name)] == n.translated[lang];
      assert n.translated[lang := n.translated[lang]] == n.translated;
    } else {
      assert name in n.shared;
      assert n.shared[name := Get(n, lang, name)] == n.shared;
    }
  }

  lemma UnsetFieldEmpties(n: NodeData, lang: Langcode, name: string, lang': Langcode, name': string)
    ensures Get(UnsetField(n, lang, name), lang', name') ==
      if HasField(n, name) && Affects(n, lang, name, lang', name') then Cleared(Get(n, lang, name)) else Get(n, lang', name')
  {
    if HasField(n, name) {
      GetSetField(n, lang, name, Cleared(Get(n, lang, name)), lang', name');
    }
  }
}

=== FILE: layout.dfy ===
/**
 * Inline blocks of a layout: how one component is resolved and re-created, the rewrite of a
 * section and of a whole section list as specification functions, the relation that says what
 * the rewrite promises, and the section object whose component list is edited in place.
 */
module InlineBlocks {
  import opened Wrappers
  import opened Entity

  /** getPlugin() instanceof InlineBlock: the plugin id names a derivative of `inline_block`. */
  predicate IsInlineBlock(c: Component)
  {
    "inline_block:" <= c.configuration.pluginId
  }

  /** PHP empty() on `block_serialized`: absent, NULL, "" or "0". */
  predicate SerializedEmpty(blob: Option<Blob>)
  {
    blob.None? || (blob.value.Raw? && (blob.value.text == "" || blob.value.text == "0"))
  }

  /** PHP empty() on `block_revision_id`: absent, NULL or 0. */
  predicate RevisionEmpty(revisionId: Option<nat>)
  {
    revisionId.None? || revisionId.value == 0
  }

  /** loadRevision() on the block_content storage: NULL for an unknown revision. */
  function LoadRevision(revisions: map<nat, BlockContent>, revisionId: nat): Option<BlockContent>
  {
    if revisionId in revisions then Some(revisions[revisionId]) else None
  }

  /**
   * The block content of a component: a non-empty serialized payload decides on its own (a
   * corrupt one resolves to nothing, the revision id is not consulted); otherwise a non-empty
   * revision id is looked up.
   */
  function ResolveBlock(configuration: BlockConfiguration, revisions: map<nat, BlockContent>): (r: Option<BlockContent>)
    ensures !SerializedEmpty(configuration.blockSerialized) ==> r == Decode(configuration.blockSerialized.value)
    ensures r.Some? <==>
      if !SerializedEmpty(configuration.blockSerialized) then configuration.blockSerialized.value.Serialized?
      else !RevisionEmpty(configuration.blockRevisionId) && configuration.blockRevisionId.value in revisions
    ensures r.Some? && SerializedEmpty(configuration.blockSerialized) ==>
      r.value == revisions[configuration.blockRevisionId.value]
  {
    if !SerializedEmpty(configuration.blockSerialized) then
      Decode(configuration.blockSerialized.value)
    else if !RevisionEmpty(configuration.blockRevisionId) then
      LoadRevision(revisions, configuration.blockRevisionId.value)
    else
      None
  }

  // ---------------------------------------------------------------------------------------
  // What the rewrite promises

  /**
   * `c'` is what the rewrite may make of `c` when every identity it mints lies in [lo, hi):
   * a component of another plugin stays as it is; an inline block gets a new uuid, keeps its
   * region and additional data, and either keeps its configuration (nothing resolved) or
   * points at no revision and carries the serialization of a duplicate of the resolved block.
   */
  predicate ComponentCloned(c: Component, c': Component, revisions: map<nat, BlockContent>, lo: nat, hi: nat)
  {
    if !IsInlineBlock(c) then c' == c
    else
      && lo <= c'.uuid < hi
      && c'.region == c.region
      && c'.additional == c.additional
      && match ResolveBlock(c.configuration, revisions)
         case None => c'.configuration == c.configuration
         case Some(b) =>
           && c'.configuration == c.configuration.(blockRevisionId := None, blockSerialized := c'.configuration.blockSerialized)
           && c'.configuration.blockSerialized.Some?
           && Decode(c'.configuration.blockSerialized.value).Some?
           && var copy := Decode(c'.configuration.blockSerialized.value).value;
              && copy.fields == b.fields && copy.id.None? && copy.revisionId.None?
              && lo <= copy.uuid < hi && copy.uuid != c'.uuid
  }

  predicate SectionCloned(s: SectionData, s': SectionData, revisions: map<nat, BlockContent>, lo: nat, hi: nat)
  {
    && s'.layoutId == s.layoutId
    && s'.layoutSettings == s.layoutSettings
    && |s'.components| == |s.components|
    && forall j :: 0 <= j < |s.components| ==> ComponentCloned(s.components[j], s'.components[j], revisions, lo, hi)
  }

  /** A section's components are keyed by uuid: no uuid occurs twice. */
  predicate UniqueUuids(cs: seq<Component>)
  {
    forall i, j :: 0 <= i < j < |cs| ==> cs[i].uuid != cs[j].uuid
  }

  predicate UuidsBelow(cs: seq<Component>, bound: nat)
  {
    forall i :: 0 <= i < |cs| ==> cs[i].uuid < bound
  }

  /** Every section is keyed by uuid, and every uuid in it was issued before `bound`. */
  predicate LayoutValid(sections: seq<SectionData>, bound: nat)
  {
    forall i :: 0 <= i < |sections| ==> UniqueUuids(sections[i].components) && UuidsBelow(sections[i].components, bound)
  }

  function ComponentUuids(sections: seq<SectionData>): set<Uuid>
  {
    set i, j | 0 <= i < |sections| && 0 <= j < |sections[i].components| :: sections[i].components[j].uuid
  }

  // ---------------------------------------------------------------------------------------
  // The rewrite, threading the uuid service's counter

  /**
   * One pass of the inner loop: resolve, duplicate the block (one uuid), then build the new
   * component (one more uuid). Returns the component and the counter afterwards.
   */
  function CloneComponent(c: Component, revisions: map<nat, BlockContent>, next: nat): (r: (Component, nat))
    ensures ComponentCloned(c, r.0, revisions, next, r.1)
    ensures next <= r.1 <= next + 2
    ensures IsInlineBlock(r.0) == IsInlineBlock(c)
  {
    if !IsInlineBlock(c) then (c, next)
    else
      var block := ResolveBlock(c.configuration, revisions);
      var configuration :=
        if block.Some? then
          c.configuration.(blockRevisionId := None, blockSerialized := Some(Encode(DuplicateBlock(block.value, next))))
        else c.configuration;
      var componentUuid := if block.Some? then next + 1 else next;
      (Component(componentUuid, c.region, configuration, c.additional), componentUuid + 1)
  }

  /** The components of one section, rewritten in order. */
  function CloneComponents(cs: seq<Component>, revisions: map<nat, BlockContent>, next: nat): (r: (seq<Component>, nat))
    ensures |r.0| == |cs| && next <= r.1
  {
    if cs == [] then ([], next)
    else
      var (init, mid) := CloneComponents(cs[..|cs| - 1], revisions, next);
      var (last, after) := CloneComponent(cs[|cs| - 1], revisions, mid);
      (init + [last], after)
  }

  function CloneSection(s: SectionData, revisions: map<nat, BlockContent>, next: nat): (r: (SectionData, nat))
    ensures next <= r.1
  {
    var (cs, after) := CloneComponents(s.components, revisions, next);
    (s.(components := cs), after)
  }

  /** The section list, rewritten section by section in order. */
  function CloneSections(sections: seq<SectionData>, revisions: map<nat, BlockContent>, next: nat): (r: (seq<SectionData>, nat))
    ensures |r.0| == |sections| && next <= r.1
  {
    if sections == [] then ([], next)
    else
      var (init, mid) := CloneSections(sections[..|sections| - 1], revisions, next);
      var (last, after) := CloneSection(sections[|sections| - 1], revisions, mid);
      (init + [last], after)
  }

  /**
   * cloneInlineBlocks on one translation: nothing happens without a non-empty layout field;
   * otherwise the field holds the rewritten sections.
   */
  function InlineBlockPass(n: NodeData, lang: Langcode, revisions: map<nat, BlockContent>, next: nat): (r: (NodeData, nat))
    ensures next <= r.1 && SameShape(r.0, n)
  {
    var v := Get(n, lang, LayoutFieldName);
    if !HasField(n, LayoutFieldName) || IsEmpty(v) || !v.Layout? then (n, next)
    else
      var (sections, after) := CloneSections(v.sections, revisions, next);
      (SetField(n, lang, LayoutFieldName, Layout(sections)), after)
  }

  // ---------------------------------------------------------------------------------------
  // Lemmas

  lemma ComponentClonedWiden(c: Component, c': Component, revisions: map<nat, BlockContent>, lo: nat, hi: nat, lo': nat, hi': nat)
    requires ComponentCloned(c, c', revisions, lo, hi) && lo' <= lo && hi <= hi'
    ensures ComponentCloned(c, c', revisions, lo', hi')
  {
  }

  /** Every component of a rewritten section is the rewrite of the original at its position. */
  lemma {:induction false} CloneComponentsCloned(cs: seq<Component>, revisions: map<nat, BlockContent>, next: nat)
    ensures forall j :: 0 <= j < |cs| ==>
      ComponentCloned(cs[j], CloneComponents(cs, revisions, next).0[j], revisions, next, CloneComponents(cs, revisions, next).1)
  {
    if cs != [] {
      var init := cs[..|cs| - 1];
      CloneComponentsCloned(init, revisions, next);
      var (done, mid) := CloneComponents(init, revisions, next);
      var r := CloneComponents(cs, revisions, next);
      forall j | 0 <= j < |cs|
        ensures ComponentCloned(cs[j], r.0[j], revisions, next, r.1)
      {
        if j < |cs| - 1 {
          assert cs[j] == init[j] && r.0[j] == done[j];
          ComponentClonedWiden(cs[j], r.0[j], revisions, next, mid, next, r.1);
        }
      }
    }
  }

  /** The rewrite keeps a section keyed by uuid, and every uuid it holds was issued. */
  lemma {:induction false} CloneComponentsValid(cs: seq<Component>, revisions: map<nat, BlockContent>, next: nat)
    requires UniqueUuids(cs) && UuidsBelow(cs, next)
    ensures UniqueUuids(CloneComponents(cs, revisions, next).0)
    ensures UuidsBelow(CloneComponents(cs, revisions, next).0, CloneComponents(cs, revisions, next).1)
  {
    if cs != [] {
      var init := cs[..|cs| - 1];
      CloneComponentsValid(init, revisions, next);
      CloneComponentsCloned(init, revisions, next);
      var (done, mid) := CloneComponents(init, revisions, next);
      var (last, after) := CloneComponent(cs[|cs| - 1], revisions, mid);
      var r := done + [last];
      assert r == CloneComponents(cs, revisions, next).0;
      forall i, j | 0 <= i < j < |r|
        ensures r[i].uuid != r[j].uuid
      {
        if j == |r| - 1 {
          if IsInlineBlock(cs[j]) {
            assert r[i].uuid < mid <= r[j].uuid;
          } else {
            assert r[j] == cs[j];
            assert ComponentCloned(init[i], done[i], revisions, next, mid);
            if IsInlineBlock(init[i]) {
              assert r[j].uuid < next <= r[i].uuid;
            } else {
              assert r[i] == cs[i];
            }
          }
        }
      }
    }
  }

  /** Every section of a rewritten list is the rewrite of the original at its index. */
  lemma {:induction false} CloneSectionsCloned(sections: seq<SectionData>, revisions: map<nat, BlockContent>, next: nat)
    ensures forall i :: 0 <= i < |sections| ==>
      SectionCloned(sections[i], CloneSections(sections, revisions, next).0[i], revisions, next, CloneSections(sections, revisions, next).1)
  {
    if sections != [] {
      var init := sections[..|sections| - 1];
      CloneSectionsCloned(init, revisions, next);
      var (done, mid) := CloneSections(init, revisions, next);
      var last := sections[|sections| - 1];
      CloneComponentsCloned(last.components, revisions, mid);
      var r := CloneSections(sections, revisions, next);
      forall i | 0 <= i < |sections|
        ensures SectionCloned(sections[i], r.0[i], revisions, next, r.1)
      {
        if i < |sections| - 1 {
          assert sections[i] == init[i] && r.0[i] == done[i];
          forall j | 0 <= j < |sections[i].components|
            ensures ComponentCloned(sections[i].components[j], r.0[i].components[j], revisions, next, r.1)
          {
            ComponentClonedWiden(sections[i].components[j], r.0[i].components[j], revisions, next, mid, next, r.1);
          }
        } else {
          forall j | 0 <= j < |last.components|
            ensures ComponentCloned(last.components[j], r.0[i].components[j], revisions, next, r.1)
          {
            ComponentClonedWiden(last.components[j], r.0[i].components[j], revisions, mid, r.1, next, r.1);
          }
        }
      }
    }
  }

  lemma {:induction false} CloneSectionsValid(sections: seq<SectionData>, revisions: map<nat, BlockContent>, next: nat)
    requires LayoutValid(sections, next)
    ensures LayoutValid(CloneSections(sections, revisions, next).0, CloneSections(sections, revisions, next).1)
  {
    if sections != [] {
      var init := sections[..|sections| - 1];
      assert LayoutValid(init, next) by {
        forall i | 0 <= i < |init| ensures UniqueUuids(init[i].components) && UuidsBelow(init[i].components, next) {
          assert init[i] == sections[i];
        }
      }
      CloneSectionsValid(init, revisions, next);
      var (done, mid) := CloneSections(init, revisions, next);
      var last := sections[|sections| - 1];
      assert UuidsBelow(last.components, mid);
      CloneComponentsValid(last.components, revisions, mid);
    }
  }

  /**
   * Inline blocks of the rewritten layout carry identities that are no component uuid of the
   * original layout, for their component and for their block copy alike.
   */
  lemma FreshIdentities(sections: seq<SectionData>, revisions: map<nat, BlockContent>, next: nat)
    requires LayoutValid(sections, next)
    ensures forall i :: 0 <= i < |sections| ==>
      |CloneSections(sections, revisions, next).0[i].components| == |sections[i].components|
    ensures forall i, j :: 0 <= i < |sections| && 0 <= j < |sections[i].components| && IsInlineBlock(sections[i].components[j]) ==>
      CloneSections(sections, revisions, next).0[i].components[j].uuid !in ComponentUuids(sections)
    ensures forall i, j, u: Uuid ::
      0 <= i < |sections| && 0 <= j < |sections[i].components| && BlockIdentity(CloneSections(sections, revisions, next).0[i].components[j], u)
      ==> u !in ComponentUuids(sections)
  {
    CloneSectionsCloned(sections, revisions, next);
    var r := CloneSections(sections, revisions, next);
    assert forall u :: u in ComponentUuids(sections) ==> u < next by {
      forall u | u in ComponentUuids(sections) ensures u < next {
        var i', j' :| 0 <= i' < |sections| && 0 <= j' < |sections[i'].components| && sections[i'].components[j'].uuid == u;
        assert UuidsBelow(sections[i'].components, next);
      }
    }
    forall i, j | 0 <= i < |sections| && 0 <= j < |sections[i].components| && IsInlineBlock(sections[i].components[j])
      ensures r.0[i].components[j].uuid !in ComponentUuids(sections)
    {
      assert SectionCloned(sections[i], r.0[i], revisions, next, r.1);
      assert r.0[i].components[j].uuid >= next;
    }
    forall i, j, u: Uuid | 0 <= i < |sections| && 0 <= j < |sections[i].components| && BlockIdentity(r.0[i].components[j], u)
      ensures u !in ComponentUuids(sections)
    {
      assert SectionCloned(sections[i], r.0[i], revisions, next, r.1);
      ComponentClonedFresh(sections[i].components[j], r.0[i].components[j], revisions, next, r.1);
    }
  }

  /** An inline block whose non-empty `block_serialized` is not the serialization of a block. */
  predicate CorruptPayload(c: Component)
  {
    IsInlineBlock(c) && !SerializedEmpty(c.configuration.blockSerialized) && c.configuration.blockSerialized.value.Raw?
  }

  /**
   * A corrupt payload resolves to nothing and the revision id is then not consulted, so the
   * rewrite keeps that component's whole configuration, `block_revision_id` included: the new
   * component still names the original's block revision.
   */
  lemma CorruptPayloadKeepsRevision(sections: seq<SectionData>, revisions: map<nat, BlockContent>, next: nat)
    ensures forall i :: 0 <= i < |sections| ==>
      |CloneSections(sections, revisions, next).0[i].components| == |sections[i].components|
    ensures forall i, j :: 0 <= i < |sections| && 0 <= j < |sections[i].components| && CorruptPayload(sections[i].components[j]) ==>
      CloneSections(sections, revisions, next).0[i].components[j].configuration == sections[i].components[j].configuration
  {
    CloneSectionsCloned(sections, revisions, next);
    var r := CloneSections(sections, revisions, next);
    forall i, j | 0 <= i < |sections| && 0 <= j < |sections[i].components| && CorruptPayload(sections[i].components[j])
      ensures r.0[i].components[j].configuration == sections[i].components[j].configuration
    {
      assert SectionCloned(sections[i], r.0[i], revisions, next, r.1);
      assert ComponentCloned(sections[i].components[j], r.0[i].components[j], revisions, next, r.1);
    }
  }

  lemma LayoutValidWiden(sections: seq<SectionData>, bound: nat, bound': nat)
    requires LayoutValid(sections, bound) && bound <= bound'
    ensures LayoutValid(sections, bound')
  {
  }

  /**
   * cloneInlineBlocks on one translation: without a non-empty layout field nothing changes and
   * no uuid is used; otherwise the language's layout is the section-by-section rewrite of the
   * old one, and every other field view is as before.
   */
  lemma InlineBlockPassEffect(n: NodeData, lang: Langcode, revisions: map<nat, BlockContent>, next: nat)
    ensures var v := Get(n, lang, LayoutFieldName);
      !(HasField(n, LayoutFieldName) && !IsEmpty(v) && v.Layout?) ==> InlineBlockPass(n, lang, revisions, next) == (n, next)
    ensures var v := Get(n, lang, LayoutFieldName);
      var r := InlineBlockPass(n, lang, revisions, next);
      HasField(n, LayoutFieldName) && !IsEmpty(v) && v.Layout? ==>
        && Get(r.0, lang, LayoutFieldName).Layout?
        && |Get(r.0, lang, LayoutFieldName).sections| == |v.sections|
        && forall i :: 0 <= i < |v.sections| ==>
             SectionCloned(v.sections[i], Get(r.0, lang, LayoutFieldName).sections[i], revisions, next, r.1)
    ensures forall lang', name' :: !Affects(n, lang, LayoutFieldName, lang', name') ==>
      Get(InlineBlockPass(n, lang, revisions, next).0, lang', name') == Get(n, lang', name')
    ensures forall lang' :: Affects(n, lang, LayoutFieldName, lang', LayoutFieldName) ==>
      Get(InlineBlockPass(n, lang, revisions, next).0, lang', LayoutFieldName) ==
      Get(InlineBlockPass(n, lang, revisions, next).0, lang, LayoutFieldName)
  {
    var v := Get(n, lang, LayoutFieldName);
    if HasField(n, LayoutFieldName) && !IsEmpty(v) && v.Layout? {
      CloneSectionsCloned(v.sections, revisions, next);
      var ss := CloneSections(v.sections, revisions, next).0;
      forall lang', name' ensures Get(SetField(n, lang, LayoutFieldName, Layout(ss)), lang', name') ==
        if Affects(n, lang, LayoutFieldName, lang', name') then Layout(ss) else Get(n, lang', name')
      {
        GetSetField(n, lang, LayoutFieldName, Layout(ss), lang', name');
      }
    }
  }

  /**
   * An inline block owns two identities, its own uuid and that of the block content it
   * carries serialized; both are at least `bound`.
   */
  predicate ComponentFresh(c: Component, bound: nat)
  {
    IsInlineBlock(c) ==>
      && c.uuid >= bound
      && var blob := c.configuration.blockSerialized;
         blob.Some? && blob.value.Serialized? ==> blob.value.block.uuid >= bound
  }

  predicate InlineFresh(sections: seq<SectionData>, bound: nat)
  {
    forall i, j :: 0 <= i < |sections| && 0 <= j < |sections[i].components| ==>
      ComponentFresh(sections[i].components[j], bound)
  }

  /** Whatever the rewrite makes of a component owns only identities it minted itself. */
  lemma ComponentClonedFresh(c: Component, c': Component, revisions: map<nat, BlockContent>, lo: nat, hi: nat)
    requires ComponentCloned(c, c', revisions, lo, hi)
    ensures ComponentFresh(c', lo)
  {
  }

  /** After the pass, every inline block of the translation's layout was minted by the pass. */
  lemma InlineBlockPassFresh(n: NodeData, lang: Langcode, revisions: map<nat, BlockContent>, next: nat)
    ensures HasField(n, LayoutFieldName) ==>
      InlineFresh(Sections(Get(InlineBlockPass(n, lang, revisions, next).0, lang, LayoutFieldName)), next)
  {
    InlineBlockPassEffect(n, lang, revisions, next);
    var v := Get(n, lang, LayoutFieldName);
    if HasField(n, LayoutFieldName) && !IsEmpty(v) && v.Layout? {
      var r := InlineBlockPass(n, lang, revisions, next);
      var ss := Get(r.0, lang, LayoutFieldName).sections;
      forall i, j | 0 <= i < |ss| && 0 <= j < |ss[i].components| ensures ComponentFresh(ss[i].components[j], next) {
        assert SectionCloned(v.sections[i], ss[i], revisions, next, r.1);
        ComponentClonedFresh(v.sections[i].components[j], ss[i].components[j], revisions, next, r.1);
      }
    }
  }

  /** The pass keeps the translation's layout keyed by uuid, below the advanced counter. */
  lemma InlineBlockPassValid(n: NodeData, lang: Langcode, revisions: map<nat, BlockContent>, next: nat)
    requires LayoutValid(Sections(Get(n, lang, LayoutFieldName)), next)
    ensures var r := InlineBlockPass(n, lang, revisions, next);
      LayoutValid(Sections(Get(r.0, lang, LayoutFieldName)), r.1)
  {
    var v := Get(n, lang, LayoutFieldName);
    if HasField(n, LayoutFieldName) && !IsEmpty(v) && v.Layout? {
      CloneSectionsValid(v.sections, revisions, next);
      GetSetField(n, lang, LayoutFieldName, Layout(CloneSections(v.sections, revisions, next).0), lang, LayoutFieldName);
    }
  }

  // ---------------------------------------------------------------------------------------
  // Distinct identities

  /**
   * `u` is an identity the inline block `c` holds: its own uuid, or the uuid of the block
   * content it carries serialized.
   */
  predicate BlockIdentity(c: Component, u: Uuid)
  {
    && IsInlineBlock(c)
    && (|| c.uuid == u
        || (c.configuration.blockSerialized.Some? && c.configuration.blockSerialized.value.Serialized?
            && c.configuration.blockSerialized.value.block.uuid == u))
  }

  /** The inline blocks of `cs` hold only identities in [lo, hi), none of them at two positions. */
  ghost predicate ComponentsMintedOnce(cs: seq<Component>, lo: nat, hi: nat)
  {
    && (forall j, u: Uuid :: 0 <= j < |cs| && BlockIdentity(cs[j], u) ==> lo <= u < hi)
    && (forall a, b, u: Uuid :: 0 <= a < |cs| && 0 <= b < |cs| && BlockIdentity(cs[a], u) && BlockIdentity(cs[b], u) ==> a == b)
  }

  /** The same over a whole layout, positions being (section, component) pairs. */
  ghost predicate LayoutMintedOnce(sections: seq<SectionData>, lo: nat, hi: nat)
  {
    && (forall i, j, u: Uuid ::
          0 <= i < |sections| && 0 <= j < |sections[i].components| && BlockIdentity(sections[i].components[j], u)
          ==> lo <= u < hi)
    && (forall i1, j1, i2, j2, u: Uuid ::
          && 0 <= i1 < |sections| && 0 <= j1 < |sections[i1].components| && BlockIdentity(sections[i1].components[j1], u)
          && 0 <= i2 < |sections| && 0 <= j2 < |sections[i2].components| && BlockIdentity(sections[i2].components[j2], u)
          ==> i1 == i2 && j1 == j2)
  }

  /**
   * A rewritten inline block holds only identities minted for it; a block left unresolved
   * carries no serialized block, so it holds its new uuid alone.
   */
  lemma CloneComponentIdentities(c: Component, revisions: map<nat, BlockContent>, next: nat)
    ensures forall u: Uuid :: BlockIdentity(CloneComponent(c, revisions, next).0, u) ==> next <= u < CloneComponent(c, revisions, next).1
  {
  }

  /** The inner loop mints every identity its inline blocks then hold, each for one position. */
  lemma {:induction false} CloneComponentsDistinct(cs: seq<Component>, revisions: map<nat, BlockContent>, next: nat)
    ensures ComponentsMintedOnce(CloneComponents(cs, revisions, next).0, next, CloneComponents(cs, revisions, next).1)
  {
    if cs != [] {
      var init := cs[..|cs| - 1];
      CloneComponentsDistinct(init, revisions, next);
      var done, mid := CloneComponents(init, revisions, next).0, CloneComponents(init, revisions, next).1;
      assert ComponentsMintedOnce(done, next, mid);
      var last, after := CloneComponent(cs[|cs| - 1], revisions, mid).0, CloneComponent(cs[|cs| - 1], revisions, mid).1;
      CloneComponentIdentities(cs[|cs| - 1], revisions, mid);
      var r := done + [last];
      assert r == CloneComponents(cs, revisions, next).0;
      forall j, u: Uuid | 0 <= j < |r| && BlockIdentity(r[j], u)
        ensures next <= u < after && (j < |done| ==> u < mid) && (j == |done| ==> mid <= u)
      {
        if j < |done| {
          assert BlockIdentity(done[j], u);
        }
      }
    }
  }

  /** The outer loop: every identity held in the rewritten layout was minted for one position. */
  lemma {:induction false} CloneSectionsDistinct(sections: seq<SectionData>, revisions: map<nat, BlockContent>, next: nat)
    ensures LayoutMintedOnce(CloneSections(sections, revisions, next).0, next, CloneSections(sections, revisions, next).1)
  {
    if sections != [] {
      var init := sections[..|sections| - 1];
      CloneSectionsDistinct(init, revisions, next);
      var done, mid := CloneSections(init, revisions, next).0, CloneSections(init, revisions, next).1;
      assert LayoutMintedOnce(done, next, mid);
      var last := sections[|sections| - 1];
      CloneComponentsDistinct(last.components, revisions, mid);
      var cs, after := CloneComponents(last.components, revisions, mid).0, CloneComponents(last.components, revisions, mid).1;
      assert ComponentsMintedOnce(cs, mid, after);
      var r := done + [last.(components := cs)];
      assert r == CloneSections(sections, revisions, next).0;
      forall i, j, u: Uuid | 0 <= i < |r| && 0 <= j < |r[i].components| && BlockIdentity(r[i].components[j], u)
        ensures next <= u < after && (i < |done| ==> u < mid) && (i == |done| ==> mid <= u)
      {
        if i < |done| {
          assert BlockIdentity(done[i].components[j], u);
        } else {
          assert BlockIdentity(cs[j], u);
        }
      }
      forall i1, j1, i2, j2, u: Uuid |
        && 0 <= i1 < |r| && 0 <= j1 < |r[i1].components| && BlockIdentity(r[i1].components[j1], u)
        && 0 <= i2 < |r| && 0 <= j2 < |r[i2].components| && BlockIdentity(r[i2].components[j2], u)
        ensures i1 == i2 && j1 == j2
      {
        if i1 < |done| && i2 < |done| {
          assert BlockIdentity(done[i1].components[j1], u) && BlockIdentity(done[i2].components[j2], u);
        } else if i1 == |done| && i2 == |done| {
          assert BlockIdentity(cs[j1], u) && BlockIdentity(cs[j2], u);
        }
      }
    }
  }

  /**
   * cloneInlineBlocks on one translation: every identity an inline block of the language's
   * layout then holds was minted by the pass, for exactly one position.
   */
  lemma InlineBlockPassDistinct(n: NodeData, lang: Langcode, revisions: map<nat, BlockContent>, next: nat)
    ensures HasField(n, LayoutFieldName) ==>
      LayoutMintedOnce(Sections(Get(InlineBlockPass(n, lang, revisions, next).0, lang, LayoutFieldName)), next,
                       InlineBlockPass(n, lang, revisions, next).1)
  {
    var v := Get(n, lang, LayoutFieldName);
    if HasField(n, LayoutFieldName) && !IsEmpty(v) && v.Layout? {
      CloneSectionsDistinct(v.sections, revisions, next);
      GetSetField(n, lang, LayoutFieldName, Layout(CloneSections(v.sections, revisions, next).0), lang, LayoutFieldName);
    }
  }

  // ---------------------------------------------------------------------------------------
  // The section object and its component map

  predicate HasComponent(cs: seq<Component>, uuid: Uuid)
  {
    exists i :: 0 <= i < |cs| && cs[i].uuid == uuid
  }

  /** The position of the first component with the given uuid. */
  function IndexOf(cs: seq<Component>, uuid: Uuid): (i: nat)
    requires HasComponent(cs, uuid)
    ensures i < |cs| && cs[i].uuid == uuid
    ensures forall j :: 0 <= j < i ==> cs[j].uuid != uuid
  {
    if cs[0].uuid == uuid then 0
    else
      assert HasComponent(cs[1..], uuid) by {
        var k :| 0 <= k < |cs| && cs[k].uuid == uuid;
        assert cs[1..][k - 1].uuid == uuid;
      }
      1 + IndexOf(cs[1..], uuid)
  }

  class Section {
    const layoutId: string
    const layoutSettings: map<string, string>
    var components: seq<Component>

    constructor (data: SectionData)
      ensures Value() == data
    {
      layoutId, layoutSettings, components := data.layoutId, data.layoutSettings, data.components;
    }

    function Value(): SectionData
      reads this
    {
      SectionData(layoutId, layoutSettings, components)
    }

    ghost predicate Valid()
      reads this
    {
      UniqueUuids(components)
    }

    /**
     * insertAfterComponent(): place `component` right after the one with `precedingUuid`,
     * which must sit in the same region (the source throws otherwise); the new uuid must not
     * be a key of the section yet.
     */
    method InsertAfterComponent(precedingUuid: Uuid, component: Component)
      requires Valid()
      requires HasComponent(components, precedingUuid)
      requires components[IndexOf(components, precedingUuid)].region == component.region
      requires !HasComponent(components, component.uuid)
      modifies this
      ensures Valid()
      ensures var i := IndexOf(old(components), precedingUuid);
        components == old(components)[..i + 1] + [component] + old(components)[i + 1..]
    {
      var i := IndexOf(components, precedingUuid);
      components := components[..i + 1] + [component] + components[i + 1..];
      forall j, k | 0 <= j < k < |components| ensures components[j].uuid != components[k].uuid {
        var old' := old(components);
        if j == i + 1 {
          assert components[k] == old'[k - 1];
        } else if k == i + 1 {
          assert components[j] == old'[j];
        } else {
          assert components[j] == old'[if j <= i then j else j - 1];
          assert components[k] == old'[if k <= i then k else k - 1];
        }
      }
    }

    /** removeComponent(): drop the component with the given uuid, if there is one. */
    method RemoveComponent(uuid: Uuid)
      requires Valid()
      modifies this
      ensures Valid()
      ensures HasComponent(old(components), uuid) ==>
        var i := IndexOf(old(components), uuid);
        components == old(components)[..i] + old(components)[i + 1..]
      ensures !HasComponent(old(components), uuid) ==> components == old(components)
    {
      if HasComponent(components, uuid) {
        var i := IndexOf(components, uuid);
        components := components[..i] + components[i + 1..];
        forall j, k | 0 <= j < k < |components| ensures components[j].uuid != components[k].uuid {
          var old' := old(components);
          assert components[j] == old'[if j < i then j else j + 1];
          assert components[k] == old'[if k < i then k else k + 1];
        }
      }
    }
  }
}

=== FILE: node.dfy ===
/**
 * The mutable objects of the entity API: the uuid service and a node whose translations are
 * read and written through get/set/unset, as the form builder does.
 */
module Nodes {
  import opened Wrappers
  import opened Entity

  /** The uuid service: every call returns an identity that no earlier call returned. */
  class UuidService {
    var next: Uuid

    constructor (start: Uuid)
      ensures next == start
    {
      next := start;
    }

    method Generate() returns (u: Uuid)
      modifies this
      ensures u == old(next) && next == old(next) + 1
    {
      u := next;
      next := next + 1;
    }
  }

  class Node {
    var id: Option<nat>
    var revisionId: Option<nat>
    var uuid: Uuid
    const bundle: string
    const langcode: Langcode
    const definitions: seq<FieldDefinition>
    const languages: seq<Langcode>
    var shared: map<string, FieldValue>
    var translated: map<Langcode, map<string, FieldValue>>

    function Value(): NodeData
      reads this
    {
      NodeData(id, revisionId, uuid, bundle, langcode, definitions, languages, shared, translated)
    }

    /** A node object holding the given state (as loaded from storage). */
    constructor (data: NodeData)
      ensures Value() == data
    {
      id, revisionId, uuid := data.id, data.revisionId, data.uuid;
      bundle, langcode := data.bundle, data.langcode;
      definitions, languages := data.definitions, data.languages;
      shared, translated := data.shared, data.translated;
    }

    /** createDuplicate(): a new object with every translation copied and a fresh uuid. */
    method CreateDuplicate(uuids: UuidService) returns (dup: Node)
      modifies uuids
      ensures fresh(dup)
      ensures dup.Value() == DuplicateNode(Value(), old(uuids.next)) && uuids.next == old(uuids.next) + 1
    {
      var newUuid := uuids.Generate();
      dup := new Node(DuplicateNode(Value(), newUuid));
    }

    /** getTranslation(lang): the same node, held in the given language. */
    method GetTranslation(lang: Langcode) returns (translation: Node)
      ensures fresh(translation) && translation.Value() == Value().(langcode := lang)
    {
      translation := new Node(Value().(langcode := lang));
    }

    function Get(lang: Langcode, name: string): FieldValue
      reads this
    {
      Entity.Get(Value(), lang, name)
    }

    /** `getTranslation(lang)->set(name, v)`; setting an undefined field throws in the source. */
    method Set(lang: Langcode, name: string, v: FieldValue)
      requires HasField(Value(), name)
      modifies this
      ensures Value() == SetField(old(Value()), lang, name, v)
    {
      var after := SetField(Value(), lang, name, v);
      shared, translated := after.shared, after.translated;
    }

    /** `unset($translation->{$name})`. */
    method Unset(lang: Langcode, name: string)
      modifies this
      ensures Value() == UnsetField(old(Value()), lang, name)
    {
      var after := UnsetField(Value(), lang, name);
      shared, translated := after.shared, after.translated;
    }

    /** `$item->entity = $target` on item `delta` of a reference field: the id follows the target. */
    method SetReference(lang: Langcode, name: string, delta: nat, target: SubEntity)
      requires Get(lang, name).Items? && delta < |Get(lang, name).items|
      modifies this
      ensures Value() == SetField(old(Value()), lang, name,
                                  Items(old(Get(lang, name)).items[delta := Ref(target.id, Some(target))]))
    {
      var items := Get(lang, name).items;
      var after := SetField(Value(), lang, name, Items(items[delta := Ref(target.id, Some(target))]));
      shared, translated := after.shared, after.translated;
    }

    /** The layout field's insertSection(delta, section). */
    method InsertSection(lang: Langcode, delta: nat, section: SectionData)
      requires Get(lang, LayoutFieldName).Layout?
      modifies this
      ensures Value() == SetField(old(Value()), lang, LayoutFieldName,
                                  Layout(InsertSectionAt(old(Get(lang, LayoutFieldName)).sections, delta, section)))
    {
      var sections := Get(lang, LayoutFieldName).sections;
      var after := SetField(Value(), lang, LayoutFieldName, Layout(InsertSectionAt(sections, delta, section)));
      shared, translated := after.shared, after.translated;
    }

    /** The layout field's removeSection(delta). */
    method RemoveSection(lang: Langcode, delta: nat)
      requires Get(lang, LayoutFieldName).Layout?
      modifies this
      ensures Value() == SetField(old(Value()), lang, LayoutFieldName,
                                  Layout(RemoveSectionAt(old(Get(lang, LayoutFieldName)).sections, delta)))
    {
      var sections := Get(lang, LayoutFieldName).sections;
      var after := SetField(Value(), lang, LayoutFieldName, Layout(RemoveSectionAt(sections, delta)));
      shared, translated := after.shared, after.translated;
    }
  }
}

=== FILE: paragraphs.dfy ===
/**
 * Paragraph duplication as specification functions: which fields are handled, what becomes of
 * each referenced paragraph, and the relation that states what the pass promises.
 */
module Paragraphs {
  import opened Wrappers
  import opened Settings
  import opened Entity

  /**
   * The duplicate's field loop: a field is emptied exactly when the exclusion check for the
   * paragraph's bundle answers TRUE; the duplicate's own references are not descended into.
   */
  function ClearExcludedFields(p: SubEntity, config: Config): (q: SubEntity)
    ensures q.fields.Keys == p.fields.Keys
    ensures q.id == p.id && q.revisionId == p.revisionId && q.uuid == p.uuid && q.bundle == p.bundle
  {
    p.(fields := map f | f in p.fields ::
                   if ParagraphFieldExcluded(config, f, p.bundle) then Cleared(p.fields[f]) else p.fields[f])
  }

  /** The fields of `q` are those of `p`, with exactly the excluded ones emptied. */
  predicate FieldsAfterExclusion(p: SubEntity, q: SubEntity, config: Config)
  {
    && q.fields.Keys == p.fields.Keys
    && forall f :: f in q.fields ==>
         (ParagraphFieldExcluded(config, f, p.bundle) ==> IsEmpty(q.fields[f]) && q.fields[f].Layout? == p.fields[f].Layout?)
         && (!ParagraphFieldExcluded(config, f, p.bundle) ==> q.fields[f] == p.fields[f])
  }

  lemma ClearExcludedFieldsExact(p: SubEntity, config: Config)
    ensures FieldsAfterExclusion(p, ClearExcludedFields(p, config), config)
  {
  }

  /**
   * What the pass may make of one item when every identity it mints lies in [lo, hi): a
   * reference to a loaded paragraph now holds a new, unsaved duplicate of the same bundle with
   * the excluded fields emptied; every other item is left as it is.
   */
  predicate ItemCloned(item: Item, item': Item, config: Config, lo: nat, hi: nat)
  {
    if item.Ref? && item.entity.Some? then
      && item'.Ref? && item'.entity.Some? && item'.targetId.None?
      && var p, q := item.entity.value, item'.entity.value;
         && q.id.None? && q.revisionId.None? && q.bundle == p.bundle
         && lo <= q.uuid < hi
         && FieldsAfterExclusion(p, q, config)
    else item' == item
  }

  predicate ItemsCloned(items: seq<Item>, items': seq<Item>, config: Config, lo: nat, hi: nat)
  {
    |items'| == |items| && forall j :: 0 <= j < |items| ==> ItemCloned(items[j], items'[j], config, lo, hi)
  }

  /** A paragraph field is rewritten item by item when it is a non-empty item list. */
  predicate FieldCloned(v: FieldValue, v': FieldValue, config: Config, lo: nat, hi: nat)
  {
    if v.Items? && !IsEmpty(v) then v'.Items? && ItemsCloned(v.items, v'.items, config, lo, hi) else v' == v
  }

  // ---------------------------------------------------------------------------------------
  // The pass, threading the uuid service's counter

  function CloneParagraphItem(item: Item, config: Config, next: nat): (r: (Item, nat))
    ensures ItemCloned(item, r.0, config, next, r.1)
    ensures next <= r.1 <= next + 1
  {
    if item.Ref? && item.entity.Some? then
      var copy := ClearExcludedFields(DuplicateSubEntity(item.entity.value, next), config);
      ClearExcludedFieldsExact(DuplicateSubEntity(item.entity.value, next), config);
      (Ref(copy.id, Some(copy)), next + 1)
    else (item, next)
  }

  function CloneParagraphItems(items: seq<Item>, config: Config, next: nat): (r: (seq<Item>, nat))
    ensures |r.0| == |items| && next <= r.1
  {
    if items == [] then ([], next)
    else
      var (init, mid) := CloneParagraphItems(items[..|items| - 1], config, next);
      var (last, after) := CloneParagraphItem(items[|items| - 1], config, mid);
      (init + [last], after)
  }

  /** One iteration of the loop over the node's field definitions. */
  function CloneParagraphField(n: NodeData, lang: Langcode, d: FieldDefinition, config: Config, next: nat): (r: (NodeData, nat))
    ensures next <= r.1 && SameShape(r.0, n)
  {
    var v := Get(n, lang, d.name);
    if d.targetType == Some("paragraph") && !IsEmpty(v) && v.Items? then
      var (items, after) := CloneParagraphItems(v.items, config, next);
      (SetField(n, lang, d.name, Items(items)), after)
    else (n, next)
  }

  function CloneParagraphFields(n: NodeData, lang: Langcode, defs: seq<FieldDefinition>, config: Config, next: nat): (r: (NodeData, nat))
    ensures next <= r.1 && SameShape(r.0, n)
  {
    if defs == [] then (n, next)
    else
      var (mid, m) := CloneParagraphFields(n, lang, defs[..|defs| - 1], config, next);
      CloneParagraphField(mid, lang, defs[|defs| - 1], config, m)
  }

  /** cloneParagraphs on one translation: every field definition of the node, in order. */
  function ParagraphPass(n: NodeData, lang: Langcode, config: Config, next: nat): (r: (NodeData, nat))
    ensures next <= r.1 && SameShape(r.0, n)
  {
    CloneParagraphFields(n, lang, n.definitions, config, next)
  }

  predicate DistinctNames(defs: seq<FieldDefinition>)
  {
    forall i, j :: 0 <= i < j < |defs| ==> defs[i].name != defs[j].name
  }

  // ---------------------------------------------------------------------------------------
  // Lemmas

  lemma ItemClonedWiden(item: Item, item': Item, config: Config, lo: nat, hi: nat, lo': nat, hi': nat)
    requires ItemCloned(item, item', config, lo, hi) && lo' <= lo && hi <= hi'
    ensures ItemCloned(item, item', config, lo', hi')
  {
  }

  lemma FieldClonedWiden(v: FieldValue, v': FieldValue, config: Config, lo: nat, hi: nat, lo': nat, hi': nat)
    requires FieldCloned(v, v', config, lo, hi) && lo' <= lo && hi <= hi'
    ensures FieldCloned(v, v', config, lo', hi')
  {
    if v.Items? && !IsEmpty(v) {
      forall j | 0 <= j < |v.items| ensures ItemCloned(v.items[j], v'.items[j], config, lo', hi') {
        ItemClonedWiden(v.items[j], v'.items[j], config, lo, hi, lo', hi');
      }
    }
  }

  /** Every item of a rewritten field is the rewrite of the original item at its position. */
  lemma {:induction false} CloneParagraphItemsCloned(items: seq<Item>, config: Config, next: nat)
    ensures ItemsCloned(items, CloneParagraphItems(items, config, next).0, config, next, CloneParagraphItems(items, config, next).1)
  {
    if items != [] {
      var init := items[..|items| - 1];
      CloneParagraphItemsCloned(init, config, next);
      var (done, mid) := CloneParagraphItems(init, config, next);
      var r := CloneParagraphItems(items, config, next);
      forall j | 0 <= j < |items|
        ensures ItemCloned(items[j], r.0[j], config, next, r.1)
      {
        if j < |items| - 1 {
          assert items[j] == init[j] && r.0[j] == done[j];
          ItemClonedWiden(items[j], r.0[j], config, next, mid, next, r.1);
        } else {
          ItemClonedWiden(items[j], r.0[j], config, mid, r.1, next, r.1);
        }
      }
    }
  }

  /**
   * The loop over definitions leaves alone every field view that no paragraph-typed
   * definition among `defs` writes to.
   */
  lemma {:induction false} CloneParagraphFieldsFrame(n: NodeData, lang: Langcode, defs: seq<FieldDefinition>, config: Config, next: nat, lang': Langcode, name': string)
    requires forall k :: 0 <= k < |defs| && defs[k].targetType == Some("paragraph") ==> !Affects(n, lang, defs[k].name, lang', name')
    ensures Get(CloneParagraphFields(n, lang, defs, config, next).0, lang', name') == Get(n, lang', name')
  {
    if defs != [] {
      var (mid, m) := CloneParagraphFields(n, lang, defs[..|defs| - 1], config, next);
      CloneParagraphFieldsFrame(n, lang, defs[..|defs| - 1], config, next, lang', name');
      var d := defs[|defs| - 1];
      var v := Get(mid, lang, d.name);
      if d.targetType == Some("paragraph") && !IsEmpty(v) && v.Items? {
        GetSetField(mid, lang, d.name, Items(CloneParagraphItems(v.items, config, m).0), lang', name');
      }
    }
  }

  /** Each paragraph-typed field among `defs` is rewritten for the pass's language. */
  lemma {:induction false} CloneParagraphFieldsCloned(n: NodeData, lang: Langcode, defs: seq<FieldDefinition>, config: Config, next: nat)
    requires DistinctNames(defs)
    ensures forall k :: 0 <= k < |defs| && defs[k].targetType == Some("paragraph") ==>
      FieldCloned(Get(n, lang, defs[k].name), Get(CloneParagraphFields(n, lang, defs, config, next).0, lang, defs[k].name),
                  config, next, CloneParagraphFields(n, lang, defs, config, next).1)
  {
    if defs != [] {
      var init := defs[..|defs| - 1];
      var d := defs[|defs| - 1];
      CloneParagraphFieldsCloned(n, lang, init, config, next);
      var (mid, m) := CloneParagraphFields(n, lang, init, config, next);
      var r := CloneParagraphFields(n, lang, defs, config, next);
      assert r == CloneParagraphField(mid, lang, d, config, m);
      var v := Get(mid, lang, d.name);
      forall k | 0 <= k < |defs| && defs[k].targetType == Some("paragraph")
        ensures FieldCloned(Get(n, lang, defs[k].name), Get(r.0, lang, defs[k].name), config, next, r.1)
      {
        if k < |defs| - 1 {
          assert defs[k] == init[k];
          assert defs[k].name != d.name;
          if d.targetType == Some("paragraph") && !IsEmpty(v) && v.Items? {
            GetSetField(mid, lang, d.name, Items(CloneParagraphItems(v.items, config, m).0), lang, defs[k].name);
          }
          FieldClonedWiden(Get(n, lang, defs[k].name), Get(r.0, lang, defs[k].name), config, next, m, next, r.1);
        } else {
          CloneParagraphFieldsFrame(n, lang, init, config, next, lang, d.name);
          assert Get(mid, lang, d.name) == Get(n, lang, d.name);
          if !IsEmpty(v) && v.Items? {
            CloneParagraphItemsCloned(v.items, config, m);
            GetSetField(mid, lang, d.name, Items(CloneParagraphItems(v.items, config, m).0), lang, d.name);
            FieldClonedWiden(v, Get(r.0, lang, d.name), config, m, r.1, next, r.1);
          }
        }
      }
    }
  }

  /**
   * cloneParagraphs on one translation: every paragraph-typed field of that language holds
   * duplicates of the paragraphs it referenced, and nothing else the node holds changes.
   */
  lemma ParagraphPassEffect(n: NodeData, lang: Langcode, config: Config, next: nat)
    requires DistinctNames(n.definitions)
    ensures forall name :: ParagraphTarget(n, name) ==>
      FieldCloned(Get(n, lang, name), Get(ParagraphPass(n, lang, config, next).0, lang, name), config, next, ParagraphPass(n, lang, config, next).1)
    ensures forall lang', name' :: !(ParagraphTarget(n, name') && Affects(n, lang, name', lang', name')) ==>
      Get(ParagraphPass(n, lang, config, next).0, lang', name') == Get(n, lang', name')
  {
    CloneParagraphFieldsCloned(n, lang, n.definitions, config, next);
    forall name | ParagraphTarget(n, name)
      ensures FieldCloned(Get(n, lang, name), Get(ParagraphPass(n, lang, config, next).0, lang, name), config, next, ParagraphPass(n, lang, config, next).1)
    {
      var d := Definition(n.definitions, name).value;
      var k :| 0 <= k < |n.definitions| && n.definitions[k] == d;
    }
    forall lang', name' | !(ParagraphTarget(n, name') && Affects(n, lang, name', lang', name'))
      ensures Get(ParagraphPass(n, lang, config, next).0, lang', name') == Get(n, lang', name')
    {
      forall k | 0 <= k < |n.definitions| && n.definitions[k].targetType == Some("paragraph")
        ensures !Affects(n, lang, n.definitions[k].name, lang', name')
      {
        if n.definitions[k].name == name' {
          var d := Definition(n.definitions, name').value;
          var k' :| 0 <= k' < |n.definitions| && n.definitions[k'] == d;
          assert k' == k;
        }
      }
      CloneParagraphFieldsFrame(n, lang, n.definitions, config, next, lang', name');
    }
  }

  /** Item `k` of the field value refers to a loaded entity whose uuid is `u`. */
  predicate RefersTo(v: FieldValue, k: nat, u: Uuid)
  {
    v.Items? && k < |v.items| && v.items[k].Ref? && v.items[k].entity.Some? && v.items[k].entity.value.uuid == u
  }

  /** A rewritten item list refers only to duplicates minted in [lo, hi). */
  lemma ItemsClonedRange(items: seq<Item>, items': seq<Item>, config: Config, lo: nat, hi: nat)
    requires ItemsCloned(items, items', config, lo, hi)
    ensures forall k: nat, u: Uuid :: RefersTo(Items(items'), k, u) ==> lo <= u < hi
  {
    forall k: nat, u: Uuid | RefersTo(Items(items'), k, u) ensures lo <= u < hi {
      assert ItemCloned(items[k], items'[k], config, lo, hi);
    }
  }

  /** A rewritten field refers only to duplicates minted in [lo, hi); an empty one refers to nothing. */
  lemma FieldClonedRange(v: FieldValue, v': FieldValue, config: Config, lo: nat, hi: nat)
    requires FieldCloned(v, v', config, lo, hi)
    ensures forall k: nat, u: Uuid :: RefersTo(v', k, u) ==> lo <= u < hi
  {
    if v.Items? && !IsEmpty(v) {
      ItemsClonedRange(v.items, v'.items, config, lo, hi);
    }
  }

  /** Every loaded entity of `r` has a smaller uuid than the loaded entities after it. */
  predicate Increasing(r: seq<Item>)
  {
    forall a, b :: 0 <= a < b < |r| && r[a].Ref? && r[a].entity.Some? && r[b].Ref? && r[b].entity.Some? ==>
      r[a].entity.value.uuid < r[b].entity.value.uuid
  }

  /** The duplicates the item loop mints carry uuids that increase with their position. */
  lemma {:induction false} CloneParagraphItemsIncreasing(items: seq<Item>, config: Config, next: nat)
    ensures Increasing(CloneParagraphItems(items, config, next).0)
  {
    if items != [] {
      var init := items[..|items| - 1];
      CloneParagraphItemsIncreasing(init, config, next);
      CloneParagraphItemsCloned(init, config, next);
      var done, mid := CloneParagraphItems(init, config, next).0, CloneParagraphItems(init, config, next).1;
      ItemsClonedRange(init, done, config, next, mid);
      var last, after := CloneParagraphItem(items[|items| - 1], config, mid).0, CloneParagraphItem(items[|items| - 1], config, mid).1;
      var r := done + [last];
      assert r == CloneParagraphItems(items, config, next).0;
      forall a, b | 0 <= a < b < |r| && r[a].Ref? && r[a].entity.Some? && r[b].Ref? && r[b].entity.Some?
        ensures r[a].entity.value.uuid < r[b].entity.value.uuid
      {
        assert r[a] == done[a] && RefersTo(Items(done), a, r[a].entity.value.uuid);
        if b < |done| {
          assert r[b] == done[b];
        } else {
          assert ItemCloned(items[|items| - 1], last, config, mid, after);
        }
      }
    }
  }

  /** Every loaded entity the field value refers to has a uuid in [lo, hi). */
  ghost predicate RefsWithin(v: FieldValue, lo: nat, hi: nat)
  {
    forall k: nat, u: Uuid :: RefersTo(v, k, u) ==> lo <= u < hi
  }

  /** No loaded entity is referred to from two positions of the field value. */
  ghost predicate RefsOnce(v: FieldValue)
  {
    forall ka: nat, kb: nat, u: Uuid :: RefersTo(v, ka, u) && RefersTo(v, kb, u) ==> ka == kb
  }

  /**
   * The paragraph-typed fields among `defs` refer only to uuids in [lo, hi), and no uuid is
   * referred to from two positions, whether of one field or of two.
   */
  ghost predicate MintedOnce(n: NodeData, lang: Langcode, defs: seq<FieldDefinition>, lo: nat, hi: nat)
  {
    && (forall a :: 0 <= a < |defs| && defs[a].targetType == Some("paragraph") ==>
          RefsWithin(Get(n, lang, defs[a].name), lo, hi))
    && (forall a, b, ka: nat, kb: nat, u: Uuid ::
          && 0 <= a < |defs| && defs[a].targetType == Some("paragraph") && RefersTo(Get(n, lang, defs[a].name), ka, u)
          && 0 <= b < |defs| && defs[b].targetType == Some("paragraph") && RefersTo(Get(n, lang, defs[b].name), kb, u)
          ==> a == b && ka == kb)
  }

  /**
   * One visit of a paragraph-typed field: the field then refers only to duplicates minted by
   * the visit, each from one position, and no other field of the language changes.
   */
  lemma CloneParagraphFieldStep(n: NodeData, lang: Langcode, d: FieldDefinition, config: Config, next: nat)
    requires d.targetType == Some("paragraph")
    ensures RefsWithin(Get(CloneParagraphField(n, lang, d, config, next).0, lang, d.name), next, CloneParagraphField(n, lang, d, config, next).1)
    ensures RefsOnce(Get(CloneParagraphField(n, lang, d, config, next).0, lang, d.name))
    ensures forall name' :: name' != d.name ==> Get(CloneParagraphField(n, lang, d, config, next).0, lang, name') == Get(n, lang, name')
  {
    var v := Get(n, lang, d.name);
    if !IsEmpty(v) && v.Items? {
      var items := CloneParagraphItems(v.items, config, next).0;
      var after := CloneParagraphItems(v.items, config, next).1;
      CloneParagraphItemsCloned(v.items, config, next);
      ItemsClonedRange(v.items, items, config, next, after);
      CloneParagraphItemsIncreasing(v.items, config, next);
      forall name' ensures Get(SetField(n, lang, d.name, Items(items)), lang, name') ==
        if name' == d.name then Items(items) else Get(n, lang, name')
      {
        GetSetField(n, lang, d.name, Items(items), lang, name');
      }
      forall ka: nat, kb: nat, u: Uuid | RefersTo(Items(items), ka, u) && RefersTo(Items(items), kb, u) ensures ka == kb {
        assert items[ka].entity.value.uuid == u == items[kb].entity.value.uuid;
      }
    }
  }

  /** The definition loop mints every paragraph its paragraph-typed fields then refer to, once. */
  lemma {:induction false} CloneParagraphFieldsDistinct(n: NodeData, lang: Langcode, defs: seq<FieldDefinition>, config: Config, next: nat)
    requires DistinctNames(defs)
    ensures MintedOnce(CloneParagraphFields(n, lang, defs, config, next).0, lang, defs, next, CloneParagraphFields(n, lang, defs, config, next).1)
  {
    if defs != [] {
      var init, d := defs[..|defs| - 1], defs[|defs| - 1];
      CloneParagraphFieldsDistinct(n, lang, init, config, next);
      var mid, m := CloneParagraphFields(n, lang, init, config, next).0, CloneParagraphFields(n, lang, init, config, next).1;
      assert MintedOnce(mid, lang, init, next, m);
      var r := CloneParagraphFields(n, lang, defs, config, next);
      assert r == CloneParagraphField(mid, lang, d, config, m);
      if d.targetType == Some("paragraph") {
        CloneParagraphFieldStep(mid, lang, d, config, m);
      }
      forall a | 0 <= a < |defs| - 1 ensures defs[a] == init[a] && Get(r.0, lang, defs[a].name) == Get(mid, lang, init[a].name) {
        assert defs[a].name != d.name;
      }
      forall a | 0 <= a < |defs| && defs[a].targetType == Some("paragraph")
        ensures RefsWithin(Get(r.0, lang, defs[a].name), next, r.1)
        ensures a < |defs| - 1 ==> RefsWithin(Get(r.0, lang, defs[a].name), next, m)
        ensures a == |defs| - 1 ==> RefsWithin(Get(r.0, lang, defs[a].name), m, r.1)
      {
        if a < |defs| - 1 {
          assert RefsWithin(Get(mid, lang, init[a].name), next, m);
        }
      }
      forall a, b, ka: nat, kb: nat, u: Uuid |
        && 0 <= a < |defs| && defs[a].targetType == Some("paragraph") && RefersTo(Get(r.0, lang, defs[a].name), ka, u)
        && 0 <= b < |defs| && defs[b].targetType == Some("paragraph") && RefersTo(Get(r.0, lang, defs[b].name), kb, u)
        ensures a == b && ka == kb
      {
        if a < |defs| - 1 && b < |defs| - 1 {
          assert RefersTo(Get(mid, lang, init[a].name), ka, u);
          assert RefersTo(Get(mid, lang, init[b].name), kb, u);
        }
      }
    }
  }

  /**
   * cloneParagraphs on one translation: its paragraph fields refer only to duplicates minted by
   * the pass, and each duplicate is referred to from exactly one position of one field.
   */
  lemma ParagraphPassDistinct(n: NodeData, lang: Langcode, config: Config, next: nat)
    requires DistinctNames(n.definitions)
    ensures forall name :: ParagraphTarget(n, name) ==>
      RefsWithin(Get(ParagraphPass(n, lang, config, next).0, lang, name), next, ParagraphPass(n, lang, config, next).1)
    ensures forall name1, name2, k1: nat, k2: nat, u: Uuid ::
      && ParagraphTarget(n, name1) && RefersTo(Get(ParagraphPass(n, lang, config, next).0, lang, name1), k1, u)
      && ParagraphTarget(n, name2) && RefersTo(Get(ParagraphPass(n, lang, config, next).0, lang, name2), k2, u)
      ==> name1 == name2 && k1 == k2
  {
    var defs := n.definitions;
    var r := ParagraphPass(n, lang, config, next);
    CloneParagraphFieldsDistinct(n, lang, defs, config, next);
    assert MintedOnce(r.0, lang, defs, next, r.1);
    forall name | ParagraphTarget(n, name) ensures RefsWithin(Get(r.0, lang, name), next, r.1) {
      var a :| 0 <= a < |defs| && defs[a] == Definition(defs, name).value;
      assert RefsWithin(Get(r.0, lang, defs[a].name), next, r.1);
    }
    forall name1, name2, k1: nat, k2: nat, u: Uuid |
      && ParagraphTarget(n, name1) && RefersTo(Get(r.0, lang, name1), k1, u)
      && ParagraphTarget(n, name2) && RefersTo(Get(r.0, lang, name2), k2, u)
      ensures name1 == name2 && k1 == k2
    {
      var a :| 0 <= a < |defs| && defs[a] == Definition(defs, name1).value;
      var b :| 0 <= b < |defs| && defs[b] == Definition(defs, name2).value;
      assert RefersTo(Get(r.0, lang, defs[a].name), k1, u);
      assert RefersTo(Get(r.0, lang, defs[b].name), k2, u);
    }
  }

  /** Every loaded paragraph a field value refers to has a uuid of at least `bound`. */
  predicate RefsFresh(v: FieldValue, bound: nat)
  {
    v.Items? ==> forall j :: 0 <= j < |v.items| && v.items[j].Ref? && v.items[j].entity.Some? ==>
      v.items[j].entity.value.uuid >= bound
  }

  /** Whatever the pass makes of a field refers only to paragraphs it duplicated itself. */
  lemma FieldClonedFresh(v: FieldValue, v': FieldValue, config: Config, lo: nat, hi: nat)
    requires FieldCloned(v, v', config, lo, hi)
    ensures RefsFresh(v', lo)
  {
    if v.Items? && !IsEmpty(v) {
      forall j | 0 <= j < |v'.items| && v'.items[j].Ref? && v'.items[j].entity.Some? ensures v'.items[j].entity.value.uuid >= lo {
        assert ItemCloned(v.items[j], v'.items[j], config, lo, hi);
      }
    } else if v.Items? {
      forall j | 0 <= j < |v'.items| ensures !(v'.items[j].Ref? && v'.items[j].entity.Some?) {
        assert ItemEmpty(v.items[j]);
      }
    }
  }
}

=== FILE: policy.dfy ===
/**
 * What getForm() makes of a node, as specification functions: the preparation of the duplicate,
 * the pass run on each translation (paragraphs, inline blocks, then the module's own policy on
 * excluded fields, publishing status and title), and the fold of that pass over the node's
 * languages. The lemmas state what the clone holds in every translation.
 */
module ClonePolicy {
  import opened Wrappers
  import opened Settings
  import opened Entity
  import opened InlineBlocks
  import opened Paragraphs

  const UserField := "uid"
  const CreatedField := "created"
  const ChangedField := "changed"
  const RevisionTimestampField := "revision_timestamp"

  /**
   * The shape the node entity type guarantees: one definition per field name, and the
   * layout, title and status base fields are not paragraph references.
   */
  predicate WellFormed(n: NodeData)
  {
    && DistinctNames(n.definitions)
    && !ParagraphTarget(n, LayoutFieldName)
    && !ParagraphTarget(n, TitleFieldName)
    && !ParagraphTarget(n, PublishedKey)
  }

  /** The node base fields getForm() writes: author, the three timestamps, status and title. */
  predicate HasBaseFields(n: NodeData)
  {
    && HasField(n, UserField) && HasField(n, CreatedField) && HasField(n, ChangedField)
    && HasField(n, RevisionTimestampField) && HasField(n, PublishedKey) && HasField(n, TitleFieldName)
  }

  /** The fields one translation pass may write. */
  predicate Touched(n: NodeData, config: Config, name: string)
  {
    || ParagraphTarget(n, name)
    || name == LayoutFieldName
    || name in ExcludedNodeFields(config, n.bundle)
    || (name == PublishedKey && !KeepsStatus(config))
    || name == TitleFieldName
  }

  /** The translation's field views refer only to paragraphs it duplicated itself. */
  ghost predicate ParagraphsFresh(n: NodeData, lang: Langcode, bound: nat)
  {
    forall name :: ParagraphTarget(n, name) ==> RefsFresh(Get(n, lang, name), bound)
  }

  /** The translation's layout holds only inline blocks it duplicated itself. */
  predicate BlocksFresh(n: NodeData, lang: Langcode, bound: nat)
  {
    HasField(n, LayoutFieldName) ==> InlineFresh(Sections(Get(n, lang, LayoutFieldName)), bound)
  }

  /** Every paragraph and inline block the translation owns has an identity of at least `bound`. */
  ghost predicate OwnedFresh(n: NodeData, lang: Langcode, bound: nat)
  {
    ParagraphsFresh(n, lang, bound) && BlocksFresh(n, lang, bound)
  }

  /** Every translation's layout is keyed by uuid and uses only uuids issued before `bound`. */
  ghost predicate LayoutsValid(n: NodeData, bound: nat)
  {
    forall lang :: LayoutValid(Sections(Get(n, lang, LayoutFieldName)), bound)
  }

  /**
   * `u` is an identity the original node holds or reaches: its own uuid, a loaded entity one of
   * its fields refers to, an identity an inline block of one of its layouts holds, or the uuid
   * of a stored block content revision.
   */
  ghost predicate OriginalIdentity(n: NodeData, revisions: map<nat, BlockContent>, u: Uuid)
  {
    || n.uuid == u
    || (exists lang, name, k: nat :: RefersTo(Get(n, lang, name), k, u))
    || (exists lang, i, j :: 0 <= i < |Sections(Get(n, lang, LayoutFieldName))| &&
          0 <= j < |Sections(Get(n, lang, LayoutFieldName))[i].components| &&
          BlockIdentity(Sections(Get(n, lang, LayoutFieldName))[i].components[j], u))
    || (exists id :: id in revisions && revisions[id].uuid == u)
  }

  /** Uuids are unique: every identity the original holds or reaches was issued before `bound`. */
  ghost predicate IdentitiesBelow(n: NodeData, revisions: map<nat, BlockContent>, bound: nat)
  {
    forall u: Uuid :: OriginalIdentity(n, revisions, u) ==> u < bound
  }

  predicate DistinctLanguages(langs: seq<Langcode>)
  {
    forall i, j :: 0 <= i < j < |langs| ==> langs[i] != langs[j]
  }

  // ---------------------------------------------------------------------------------------
  // The passes

  /** `unset($translated_node->{$field})` for each configured name, in order. */
  function UnsetFields(n: NodeData, lang: Langcode, names: seq<string>): (r: NodeData)
    ensures SameShape(r, n)
  {
    if names == [] then n
    else UnsetField(UnsetFields(n, lang, names[..|names| - 1]), lang, names[|names| - 1])
  }

  /**
   * The module's policy on one translation once the hooks have run: empty the excluded
   * fields, reset the publishing status to the bundle default unless clone_status is set, and
   * prefix the title as it then reads.
   */
  function ApplyNodePolicy(n: NodeData, lang: Langcode, config: Config, defaultStatus: int): (r: NodeData)
    ensures SameShape(r, n)
  {
    var afterExclusion := UnsetFields(n, lang, ExcludedNodeFields(config, n.bundle));
    var afterStatus :=
      if KeepsStatus(config) then afterExclusion
      else SetField(afterExclusion, lang, PublishedKey, Items([Number(defaultStatus)]));
    SetField(afterStatus, lang, TitleFieldName, Items([Item.Text(TitlePrefix(config) + Title(afterStatus, lang))]))
  }

  /** One iteration of getForm()'s loop over the translation languages. */
  function TranslationPass(n: NodeData, lang: Langcode, config: Config, revisions: map<nat, BlockContent>,
                           defaultStatus: int, next: nat): (r: (NodeData, nat))
    ensures next <= r.1 && SameShape(r.0, n)
  {
    var (afterParagraphs, mid) := ParagraphPass(n, lang, config, next);
    var (afterBlocks, after) := InlineBlockPass(afterParagraphs, lang, revisions, mid);
    (ApplyNodePolicy(afterBlocks, lang, config, defaultStatus), after)
  }

  /** The loop over the translation languages, in order. */
  function ClonePasses(n: NodeData, langs: seq<Langcode>, config: Config, revisions: map<nat, BlockContent>,
                       defaultStatus: int, next: nat): (r: (NodeData, nat))
    ensures next <= r.1 && SameShape(r.0, n)
  {
    if langs == [] then (n, next)
    else
      var (mid, m) := ClonePasses(n, langs[..|langs| - 1], config, revisions, defaultStatus, next);
      TranslationPass(mid, langs[|langs| - 1], config, revisions, defaultStatus, m)
  }

  /**
   * createDuplicate() on the original, then the author and the three timestamps, written through
   * the language the original is held in. One `now` stands for the three time() calls.
   */
  function Prepared(original: NodeData, newUuid: Uuid, currentUser: nat, now: int): (r: NodeData)
    ensures r.uuid == newUuid && r.id.None? && r.revisionId.None?
    ensures r.definitions == original.definitions && r.languages == original.languages
    ensures r.bundle == original.bundle && r.langcode == original.langcode
  {
    var dup := DuplicateNode(original, newUuid);
    var l := dup.langcode;
    var withUser := SetField(dup, l, UserField, Items([Number(currentUser)]));
    var withCreated := SetField(withUser, l, CreatedField, Items([Number(now)]));
    var withChanged := SetField(withCreated, l, ChangedField, Items([Number(now)]));
    SetField(withChanged, l, RevisionTimestampField, Items([Number(now)]))
  }

  /**
   * The node getForm() hands to the edit form, and the uuid counter afterwards: the duplicate
   * takes the first uuid, the passes take the following ones.
   */
  function ClonedNode(original: NodeData, config: Config, revisions: map<nat, BlockContent>, defaultStatus: int,
                      currentUser: nat, now: int, next: nat): (r: (NodeData, nat))
    ensures r.0.uuid == next && r.0.id.None? && r.0.revisionId.None?
    ensures r.0.definitions == original.definitions && r.0.languages == original.languages
    ensures r.0.bundle == original.bundle && r.0.langcode == original.langcode
    ensures next + 1 <= r.1
  {
    ClonePasses(Prepared(original, next, currentUser, now), original.languages, config, revisions, defaultStatus, next + 1)
  }

  // ---------------------------------------------------------------------------------------
  // One pass

  lemma {:induction false} UnsetFieldsEffect(n: NodeData, lang: Langcode, names: seq<string>, lang': Langcode, name: string)
    ensures Get(UnsetFields(n, lang, names), lang', name) ==
      if name in names && HasField(n, name) && Affects(n, lang, name, lang', name) then Cleared(Get(n, lang', name))
      else Get(n, lang', name)
  {
    if names != [] {
      var init, last := names[..|names| - 1], names[|names| - 1];
      assert names == init + [last];
      UnsetFieldsEffect(n, lang, init, lang', name);
      UnsetFieldsEffect(n, lang, init, lang, name);
      UnsetFieldEmpties(UnsetFields(n, lang, init), lang, last, lang', name);
    }
  }

  /**
   * What the policy does to one field view: nothing outside the translation's storage; the
   * title becomes the prefix followed by the title as it reads after the exclusions; the status
   * becomes the bundle default unless clone_status is set; an excluded field is emptied.
   */
  lemma ApplyNodePolicyEffect(n: NodeData, lang: Langcode, config: Config, defaultStatus: int, lang': Langcode, name: string)
    ensures Get(ApplyNodePolicy(n, lang, config, defaultStatus), lang', name) ==
      var excluded := name in ExcludedNodeFields(config, n.bundle) && HasField(n, name);
      if !Affects(n, lang, name, lang', name) then Get(n, lang', name)
      else if name == TitleFieldName then Items([Item.Text(TitlePrefix(config) + (if excluded then "" else Title(n, lang)))])
      else if name == PublishedKey && !KeepsStatus(config) then Items([Number(defaultStatus)])
      else if excluded then Cleared(Get(n, lang', name))
      else Get(n, lang', name)
  {
    var excluded := ExcludedNodeFields(config, n.bundle);
    var afterExclusion := UnsetFields(n, lang, excluded);
    var status := Items([Number(defaultStatus)]);
    var afterStatus := if KeepsStatus(config) then afterExclusion else SetField(afterExclusion, lang, PublishedKey, status);
    var title := Items([Item.Text(TitlePrefix(config) + Title(afterStatus, lang))]);
    UnsetFieldsEffect(n, lang, excluded, lang', name);
    UnsetFieldsEffect(n, lang, excluded, lang, TitleFieldName);
    if !KeepsStatus(config) {
      GetSetField(afterExclusion, lang, PublishedKey, status, lang', name);
      GetSetField(afterExclusion, lang, PublishedKey, status, lang, TitleFieldName);
    }
    GetSetField(afterStatus, lang, TitleFieldName, title, lang', name);
  }

  /** A field the pass does not touch, or one it writes only through another translation, is left alone. */
  lemma TranslationPassFrame(n: NodeData, lang: Langcode, config: Config, revisions: map<nat, BlockContent>,
                             defaultStatus: int, next: nat, lang': Langcode, name: string)
    requires WellFormed(n)
    requires !Touched(n, config, name) || !Affects(n, lang, name, lang', name)
    ensures Get(TranslationPass(n, lang, config, revisions, defaultStatus, next).0, lang', name) == Get(n, lang', name)
  {
    var (n1, m) := ParagraphPass(n, lang, config, next);
    var (n2, after) := InlineBlockPass(n1, lang, revisions, m);
    ParagraphPassEffect(n, lang, config, next);
    InlineBlockPassEffect(n1, lang, revisions, m);
    ApplyNodePolicyEffect(n2, lang, config, defaultStatus, lang', name);
    assert Get(n1, lang', name) == Get(n, lang', name);
    assert !Affects(n1, lang, LayoutFieldName, lang', name);
  }

  /** The title the pass writes is the prefix followed by the title the translation had. */
  lemma TranslationPassTitle(n: NodeData, lang: Langcode, config: Config, revisions: map<nat, BlockContent>,
                             defaultStatus: int, next: nat, lang': Langcode)
    requires WellFormed(n) && TitleFieldName !in ExcludedNodeFields(config, n.bundle)
    requires Affects(n, lang, TitleFieldName, lang', TitleFieldName)
    ensures Get(TranslationPass(n, lang, config, revisions, defaultStatus, next).0, lang', TitleFieldName) ==
      Items([Item.Text(TitlePrefix(config) + Title(n, lang))])
  {
    var (n1, m) := ParagraphPass(n, lang, config, next);
    var (n2, after) := InlineBlockPass(n1, lang, revisions, m);
    ParagraphPassEffect(n, lang, config, next);
    InlineBlockPassEffect(n1, lang, revisions, m);
    ApplyNodePolicyEffect(n2, lang, config, defaultStatus, lang', TitleFieldName);
    assert Get(n1, lang, TitleFieldName) == Get(n, lang, TitleFieldName);
    assert Get(n2, lang, TitleFieldName) == Get(n1, lang, TitleFieldName);
  }

  /** Without clone_status the pass writes the bundle's default status. */
  lemma TranslationPassStatus(n: NodeData, lang: Langcode, config: Config, revisions: map<nat, BlockContent>,
                              defaultStatus: int, next: nat, lang': Langcode)
    requires !KeepsStatus(config) && Affects(n, lang, PublishedKey, lang', PublishedKey)
    ensures Get(TranslationPass(n, lang, config, revisions, defaultStatus, next).0, lang', PublishedKey) ==
      Items([Number(defaultStatus)])
  {
    var (n1, m) := ParagraphPass(n, lang, config, next);
    var (n2, after) := InlineBlockPass(n1, lang, revisions, m);
    ApplyNodePolicyEffect(n2, lang, config, defaultStatus, lang', PublishedKey);
  }

  /** The pass empties an excluded field (the title, and the status when it is reset, are written afterwards). */
  lemma TranslationPassExcluded(n: NodeData, lang: Langcode, config: Config, revisions: map<nat, BlockContent>,
                                defaultStatus: int, next: nat, lang': Langcode, name: string)
    requires name in ExcludedNodeFields(config, n.bundle) && HasField(n, name)
    requires name != TitleFieldName && (name != PublishedKey || KeepsStatus(config))
    requires Affects(n, lang, name, lang', name)
    ensures IsEmpty(Get(TranslationPass(n, lang, config, revisions, defaultStatus, next).0, lang', name))
  {
    var (n1, m) := ParagraphPass(n, lang, config, next);
    var (n2, after) := InlineBlockPass(n1, lang, revisions, m);
    ApplyNodePolicyEffect(n2, lang, config, defaultStatus, lang', name);
  }

  /** One pass keeps each translation's layout keyed by uuid and below the counter. */
  lemma TranslationPassLayout(n: NodeData, lang: Langcode, config: Config, revisions: map<nat, BlockContent>,
                              defaultStatus: int, next: nat, lang': Langcode)
    requires WellFormed(n)
    requires LayoutValid(Sections(Get(n, lang, LayoutFieldName)), next)
    requires LayoutValid(Sections(Get(n, lang', LayoutFieldName)), next)
    ensures var r := TranslationPass(n, lang, config, revisions, defaultStatus, next);
      LayoutValid(Sections(Get(r.0, lang', LayoutFieldName)), r.1)
  {
    var (n1, m) := ParagraphPass(n, lang, config, next);
    var (n2, after) := InlineBlockPass(n1, lang, revisions, m);
    ParagraphPassEffect(n, lang, config, next);
    InlineBlockPassEffect(n1, lang, revisions, m);
    assert Get(n1, lang, LayoutFieldName) == Get(n, lang, LayoutFieldName);
    assert Get(n1, lang', LayoutFieldName) == Get(n, lang', LayoutFieldName);
    LayoutValidWiden(Sections(Get(n, lang, LayoutFieldName)), next, m);
    InlineBlockPassValid(n1, lang, revisions, m);
    if !Affects(n1, lang, LayoutFieldName, lang', LayoutFieldName) {
      LayoutValidWiden(Sections(Get(n, lang', LayoutFieldName)), next, after);
    }
    assert LayoutValid(Sections(Get(n2, lang', LayoutFieldName)), after);
    ApplyNodePolicyEffect(n2, lang, config, defaultStatus, lang', LayoutFieldName);
  }

  /** After the paragraph stage the translation refers only to paragraphs minted from `next` on, or kept from before. */
  lemma ParagraphStageFresh(n: NodeData, lang: Langcode, config: Config, next: nat, lang': Langcode, bound: nat)
    requires DistinctNames(n.definitions) && bound <= next
    requires lang' == lang || ParagraphsFresh(n, lang', bound)
    ensures ParagraphsFresh(ParagraphPass(n, lang, config, next).0, lang', bound)
  {
    var (n1, m) := ParagraphPass(n, lang, config, next);
    ParagraphPassEffect(n, lang, config, next);
    forall name | ParagraphTarget(n1, name) ensures RefsFresh(Get(n1, lang', name), bound) {
      if Affects(n, lang, name, lang', name) {
        FieldClonedFresh(Get(n, lang, name), Get(n1, lang, name), config, next, m);
        assert Get(n1, lang', name) == Get(n1, lang, name);
      } else {
        assert Get(n1, lang', name) == Get(n, lang', name);
      }
    }
  }

  /** The inline block stage leaves paragraph fields alone and mints the layout's blocks from `next` on. */
  lemma InlineStageFresh(n: NodeData, lang: Langcode, revisions: map<nat, BlockContent>, next: nat, lang': Langcode, bound: nat)
    requires !ParagraphTarget(n, LayoutFieldName) && bound <= next
    requires ParagraphsFresh(n, lang', bound)
    requires lang' == lang || BlocksFresh(n, lang', bound)
    ensures OwnedFresh(InlineBlockPass(n, lang, revisions, next).0, lang', bound)
  {
    var n2 := InlineBlockPass(n, lang, revisions, next).0;
    InlineBlockPassEffect(n, lang, revisions, next);
    InlineBlockPassFresh(n, lang, revisions, next);
    forall name | ParagraphTarget(n2, name) ensures RefsFresh(Get(n2, lang', name), bound) {
      assert !Affects(n, lang, LayoutFieldName, lang', name);
    }
  }

  /** The module's own policy writes nothing that refers to another entity. */
  lemma PolicyStageFresh(n: NodeData, lang: Langcode, config: Config, defaultStatus: int, lang': Langcode, bound: nat)
    requires OwnedFresh(n, lang', bound)
    ensures OwnedFresh(ApplyNodePolicy(n, lang, config, defaultStatus), lang', bound)
  {
    var r := ApplyNodePolicy(n, lang, config, defaultStatus);
    forall name | ParagraphTarget(r, name) ensures RefsFresh(Get(r, lang', name), bound) {
      ApplyNodePolicyEffect(n, lang, config, defaultStatus, lang', name);
    }
    ApplyNodePolicyEffect(n, lang, config, defaultStatus, lang', LayoutFieldName);
  }

  /**
   * One pass on `lang` leaves that translation owning only what the pass minted, and keeps
   * that property of any other translation.
   */
  lemma TranslationPassFresh(n: NodeData, lang: Langcode, config: Config, revisions: map<nat, BlockContent>,
                             defaultStatus: int, next: nat, lang': Langcode, bound: nat)
    requires WellFormed(n) && bound <= next
    requires lang' == lang || OwnedFresh(n, lang', bound)
    ensures OwnedFresh(TranslationPass(n, lang, config, revisions, defaultStatus, next).0, lang', bound)
  {
    var (n1, m) := ParagraphPass(n, lang, config, next);
    var (n2, after) := InlineBlockPass(n1, lang, revisions, m);
    ParagraphStageFresh(n, lang, config, next, lang', bound);
    ParagraphPassEffect(n, lang, config, next);
    assert Get(n1, lang', LayoutFieldName) == Get(n, lang', LayoutFieldName);
    InlineStageFresh(n1, lang, revisions, m, lang', bound);
    PolicyStageFresh(n2, lang, config, defaultStatus, lang', bound);
  }

  // ---------------------------------------------------------------------------------------
  // All translations

  lemma {:induction false} ClonePassesFrame(n: NodeData, langs: seq<Langcode>, config: Config, revisions: map<nat, BlockContent>,
                                            defaultStatus: int, next: nat, lang': Langcode, name: string)
    requires WellFormed(n) && !Touched(n, config, name)
    ensures Get(ClonePasses(n, langs, config, revisions, defaultStatus, next).0, lang', name) == Get(n, lang', name)
  {
    if langs != [] {
      var (mid, m) := ClonePasses(n, langs[..|langs| - 1], config, revisions, defaultStatus, next);
      ClonePassesFrame(n, langs[..|langs| - 1], config, revisions, defaultStatus, next, lang', name);
      TranslationPassFrame(mid, langs[|langs| - 1], config, revisions, defaultStatus, m, lang', name);
    }
  }

  /** One step of the title fold: the new translation gets its prefix, the others keep their title. */
  lemma TitleStep(n0: NodeData, n: NodeData, lang: Langcode, config: Config, revisions: map<nat, BlockContent>,
                  defaultStatus: int, next: nat, lang': Langcode)
    requires SameShape(n, n0)
    requires WellFormed(n0) && Translatable(n0, TitleFieldName)
    requires TitleFieldName !in ExcludedNodeFields(config, n0.bundle)
    ensures Get(TranslationPass(n, lang, config, revisions, defaultStatus, next).0, lang', TitleFieldName) ==
      if lang' == lang then Items([Item.Text(TitlePrefix(config) + Title(n, lang))]) else Get(n, lang', TitleFieldName)
  {
    if lang' == lang {
      TranslationPassTitle(n, lang, config, revisions, defaultStatus, next, lang');
    } else {
      TranslationPassFrame(n, lang, config, revisions, defaultStatus, next, lang', TitleFieldName);
    }
  }

  lemma DistinctPrefix(langs: seq<Langcode>)
    requires langs != [] && DistinctLanguages(langs)
    ensures DistinctLanguages(langs[..|langs| - 1]) && langs[|langs| - 1] !in langs[..|langs| - 1]
  {
    var init := langs[..|langs| - 1];
    forall j | 0 <= j < |init| ensures init[j] != langs[|langs| - 1] {
      assert init[j] == langs[j];
    }
  }

  /** A translation the fold does not visit keeps its title. */
  lemma {:induction false} ClonePassesTitleFrame(n: NodeData, langs: seq<Langcode>, config: Config, revisions: map<nat, BlockContent>,
                                                 defaultStatus: int, next: nat, lang': Langcode)
    requires WellFormed(n) && Translatable(n, TitleFieldName) && lang' !in langs
    ensures Get(ClonePasses(n, langs, config, revisions, defaultStatus, next).0, lang', TitleFieldName) == Get(n, lang', TitleFieldName)
  {
    if langs != [] {
      var init := langs[..|langs| - 1];
      var (mid, m) := ClonePasses(n, init, config, revisions, defaultStatus, next);
      assert lang' !in init;
      ClonePassesTitleFrame(n, init, config, revisions, defaultStatus, next, lang');
      assert ClonePasses(n, init, config, revisions, defaultStatus, next) == (mid, m);
      TranslationPassFrame(mid, langs[|langs| - 1], config, revisions, defaultStatus, m, lang', TitleFieldName);
    }
  }

  /** The title fold's step: the last language gets its prefix, the earlier ones keep theirs. */
  lemma TitleFoldStep(n0: NodeData, mid: NodeData, langs: seq<Langcode>, config: Config, revisions: map<nat, BlockContent>,
                      defaultStatus: int, m: nat)
    requires SameShape(mid, n0) && langs != [] && DistinctLanguages(langs)
    requires WellFormed(n0) && Translatable(n0, TitleFieldName)
    requires TitleFieldName !in ExcludedNodeFields(config, n0.bundle)
    requires forall j :: 0 <= j < |langs| - 1 ==>
      Get(mid, langs[j], TitleFieldName) == Items([Item.Text(TitlePrefix(config) + Title(n0, langs[j]))])
    requires Get(mid, langs[|langs| - 1], TitleFieldName) == Get(n0, langs[|langs| - 1], TitleFieldName)
    ensures var r := TranslationPass(mid, langs[|langs| - 1], config, revisions, defaultStatus, m).0;
      forall j :: 0 <= j < |langs| ==> Get(r, langs[j], TitleFieldName) == Items([Item.Text(TitlePrefix(config) + Title(n0, langs[j]))])
  {
    var last := langs[|langs| - 1];
    var r := TranslationPass(mid, last, config, revisions, defaultStatus, m).0;
    assert Title(mid, last) == Title(n0, last);
    forall j | 0 <= j < |langs| ensures Get(r, langs[j], TitleFieldName) == Items([Item.Text(TitlePrefix(config) + Title(n0, langs[j]))]) {
      TitleStep(n0, mid, last, config, revisions, defaultStatus, m, langs[j]);
      if j < |langs| - 1 {
        assert langs[j] != last;
      }
    }
  }

  lemma {:induction false} ClonePassesTitles(n: NodeData, langs: seq<Langcode>, config: Config, revisions: map<nat, BlockContent>,
                                             defaultStatus: int, next: nat)
    requires WellFormed(n) && Translatable(n, TitleFieldName) && DistinctLanguages(langs)
    requires TitleFieldName !in ExcludedNodeFields(config, n.bundle)
    ensures var r := ClonePasses(n, langs, config, revisions, defaultStatus, next).0;
      forall j :: 0 <= j < |langs| ==> Get(r, langs[j], TitleFieldName) == Items([Item.Text(TitlePrefix(config) + Title(n, langs[j]))])
  {
    if langs != [] {
      var init, last := langs[..|langs| - 1], langs[|langs| - 1];
      var (mid, m) := ClonePasses(n, init, config, revisions, defaultStatus, next);
      DistinctPrefix(langs);
      ClonePassesTitles(n, init, config, revisions, defaultStatus, next);
      ClonePassesTitleFrame(n, init, config, revisions, defaultStatus, next, last);
      assert ClonePasses(n, init, config, revisions, defaultStatus, next) == (mid, m);
      assert forall j :: 0 <= j < |langs| - 1 ==> langs[j] == init[j];
      TitleFoldStep(n, mid, langs, config, revisions, defaultStatus, m);
      assert ClonePasses(n, langs, config, revisions, defaultStatus, next) ==
        TranslationPass(mid, last, config, revisions, defaultStatus, m);
    }
  }

  /** One step of the status fold: the status stays the bundle default where it already was. */
  lemma StatusStep(n: NodeData, lang: Langcode, config: Config, revisions: map<nat, BlockContent>,
                   defaultStatus: int, next: nat, lang': Langcode)
    requires WellFormed(n) && !KeepsStatus(config)
    requires lang' == lang || Get(n, lang', PublishedKey) == Items([Number(defaultStatus)])
    ensures Get(TranslationPass(n, lang, config, revisions, defaultStatus, next).0, lang', PublishedKey) ==
      Items([Number(defaultStatus)])
  {
    if Affects(n, lang, PublishedKey, lang', PublishedKey) {
      TranslationPassStatus(n, lang, config, revisions, defaultStatus, next, lang');
    } else {
      TranslationPassFrame(n, lang, config, revisions, defaultStatus, next, lang', PublishedKey);
    }
  }

  /** The status fold's step: the last language is reset, the earlier ones keep the default. */
  lemma StatusFoldStep(n0: NodeData, mid: NodeData, langs: seq<Langcode>, config: Config, revisions: map<nat, BlockContent>,
                       defaultStatus: int, m: nat)
    requires SameShape(mid, n0) && langs != [] && WellFormed(n0) && !KeepsStatus(config)
    requires forall j :: 0 <= j < |langs| - 1 ==> Get(mid, langs[j], PublishedKey) == Items([Number(defaultStatus)])
    ensures var r := TranslationPass(mid, langs[|langs| - 1], config, revisions, defaultStatus, m).0;
      forall j :: 0 <= j < |langs| ==> Get(r, langs[j], PublishedKey) == Items([Number(defaultStatus)])
  {
    var last := langs[|langs| - 1];
    assert WellFormed(mid);
    forall j | 0 <= j < |langs|
      ensures Get(TranslationPass(mid, last, config, revisions, defaultStatus, m).0, langs[j], PublishedKey) == Items([Number(defaultStatus)])
    {
      StatusStep(mid, last, config, revisions, defaultStatus, m, langs[j]);
    }
  }

  lemma {:induction false} ClonePassesStatus(n: NodeData, langs: seq<Langcode>, config: Config, revisions: map<nat, BlockContent>,
                                             defaultStatus: int, next: nat)
    requires WellFormed(n) && !KeepsStatus(config)
    ensures var r := ClonePasses(n, langs, config, revisions, defaultStatus, next).0;
      forall j :: 0 <= j < |langs| ==> Get(r, langs[j], PublishedKey) == Items([Number(defaultStatus)])
  {
    if langs != [] {
      var init := langs[..|langs| - 1];
      var (mid, m) := ClonePasses(n, init, config, revisions, defaultStatus, next);
      ClonePassesStatus(n, init, config, revisions, defaultStatus, next);
      assert ClonePasses(n, init, config, revisions, defaultStatus, next) == (mid, m);
      assert forall j :: 0 <= j < |langs| - 1 ==> langs[j] == init[j];
      StatusFoldStep(n, mid, langs, config, revisions, defaultStatus, m);
      assert ClonePasses(n, langs, config, revisions, defaultStatus, next) ==
        TranslationPass(mid, langs[|langs| - 1], config, revisions, defaultStatus, m);
    }
  }

  /** One step of the exclusion fold: an excluded field stays empty where it already was. */
  lemma ExcludedStep(n0: NodeData, n: NodeData, lang: Langcode, config: Config, revisions: map<nat, BlockContent>,
                     defaultStatus: int, next: nat, lang': Langcode, name: string)
    requires SameShape(n, n0)
    requires WellFormed(n0) && name in ExcludedNodeFields(config, n0.bundle) && HasField(n0, name)
    requires name != TitleFieldName && (name != PublishedKey || KeepsStatus(config))
    requires lang' == lang || IsEmpty(Get(n, lang', name))
    ensures IsEmpty(Get(TranslationPass(n, lang, config, revisions, defaultStatus, next).0, lang', name))
  {
    if Affects(n, lang, name, lang', name) {
      TranslationPassExcluded(n, lang, config, revisions, defaultStatus, next, lang', name);
    } else {
      TranslationPassFrame(n, lang, config, revisions, defaultStatus, next, lang', name);
    }
  }

  /** The exclusion fold's step: the last language is emptied, the earlier ones stay empty. */
  lemma ExcludedFoldStep(n0: NodeData, mid: NodeData, langs: seq<Langcode>, config: Config, revisions: map<nat, BlockContent>,
                         defaultStatus: int, m: nat, name: string)
    requires SameShape(mid, n0) && langs != []
    requires WellFormed(n0) && name in ExcludedNodeFields(config, n0.bundle) && HasField(n0, name)
    requires name != TitleFieldName && (name != PublishedKey || KeepsStatus(config))
    requires forall j :: 0 <= j < |langs| - 1 ==> IsEmpty(Get(mid, langs[j], name))
    ensures var r := TranslationPass(mid, langs[|langs| - 1], config, revisions, defaultStatus, m).0;
      forall j :: 0 <= j < |langs| ==> IsEmpty(Get(r, langs[j], name))
  {
    var last := langs[|langs| - 1];
    forall j | 0 <= j < |langs|
      ensures IsEmpty(Get(TranslationPass(mid, last, config, revisions, defaultStatus, m).0, langs[j], name))
    {
      ExcludedStep(n0, mid, last, config, revisions, defaultStatus, m, langs[j], name);
    }
  }

  lemma {:induction false} ClonePassesExcluded(n: NodeData, langs: seq<Langcode>, config: Config, revisions: map<nat, BlockContent>,
                                               defaultStatus: int, next: nat, name: string)
    requires WellFormed(n) && name in ExcludedNodeFields(config, n.bundle) && HasField(n, name)
    requires name != TitleFieldName && (name != PublishedKey || KeepsStatus(config))
    ensures var r := ClonePasses(n, langs, config, revisions, defaultStatus, next).0;
      forall j :: 0 <= j < |langs| ==> IsEmpty(Get(r, langs[j], name))
  {
    if langs != [] {
      var init := langs[..|langs| - 1];
      var (mid, m) := ClonePasses(n, init, config, revisions, defaultStatus, next);
      ClonePassesExcluded(n, init, config, revisions, defaultStatus, next, name);
      assert ClonePasses(n, init, config, revisions, defaultStatus, next) == (mid, m);
      assert forall j :: 0 <= j < |langs| - 1 ==> langs[j] == init[j];
      ExcludedFoldStep(n, mid, langs, config, revisions, defaultStatus, m, name);
      assert ClonePasses(n, langs, config, revisions, defaultStatus, next) ==
        TranslationPass(mid, langs[|langs| - 1], config, revisions, defaultStatus, m);
    }
  }

  /** One pass keeps every translation's layout keyed by uuid, below the advanced counter. */
  lemma TranslationPassLayouts(n: NodeData, lang: Langcode, config: Config, revisions: map<nat, BlockContent>,
                               defaultStatus: int, next: nat)
    requires WellFormed(n) && LayoutsValid(n, next)
    ensures var r := TranslationPass(n, lang, config, revisions, defaultStatus, next);
      LayoutsValid(r.0, r.1)
  {
    var r := TranslationPass(n, lang, config, revisions, defaultStatus, next);
    forall lang' ensures LayoutValid(Sections(Get(r.0, lang', LayoutFieldName)), r.1) {
      TranslationPassLayout(n, lang, config, revisions, defaultStatus, next, lang');
    }
  }

  lemma {:induction false} ClonePassesLayout(n: NodeData, langs: seq<Langcode>, config: Config, revisions: map<nat, BlockContent>,
                                             defaultStatus: int, next: nat)
    requires WellFormed(n) && LayoutsValid(n, next)
    ensures var r := ClonePasses(n, langs, config, revisions, defaultStatus, next);
      LayoutsValid(r.0, r.1)
  {
    if langs != [] {
      var init, last := langs[..|langs| - 1], langs[|langs| - 1];
      var (mid, m) := ClonePasses(n, init, config, revisions, defaultStatus, next);
      ClonePassesLayout(n, init, config, revisions, defaultStatus, next);
      assert ClonePasses(n, init, config, revisions, defaultStatus, next) == (mid, m);
      TranslationPassLayouts(mid, last, config, revisions, defaultStatus, m);
    }
  }

  /** The freshness fold's step: the last language is rewritten, the earlier ones stay fresh. */
  lemma FreshFoldStep(n0: NodeData, mid: NodeData, langs: seq<Langcode>, config: Config, revisions: map<nat, BlockContent>,
                      defaultStatus: int, next: nat, m: nat)
    requires SameShape(mid, n0) && langs != [] && WellFormed(n0) && next <= m
    requires forall j :: 0 <= j < |langs| - 1 ==> OwnedFresh(mid, langs[j], next)
    ensures var r := TranslationPass(mid, langs[|langs| - 1], config, revisions, defaultStatus, m).0;
      forall j :: 0 <= j < |langs| ==> OwnedFresh(r, langs[j], next)
  {
    var last := langs[|langs| - 1];
    assert WellFormed(mid);
    forall j | 0 <= j < |langs| ensures OwnedFresh(TranslationPass(mid, last, config, revisions, defaultStatus, m).0, langs[j], next) {
      TranslationPassFresh(mid, last, config, revisions, defaultStatus, m, langs[j], next);
    }
  }

  lemma {:induction false} ClonePassesFresh(n: NodeData, langs: seq<Langcode>, config: Config, revisions: map<nat, BlockContent>,
                                            defaultStatus: int, next: nat)
    requires WellFormed(n)
    ensures var r := ClonePasses(n, langs, config, revisions, defaultStatus, next).0;
      forall j :: 0 <= j < |langs| ==> OwnedFresh(r, langs[j], next)
  {
    if langs != [] {
      var init := langs[..|langs| - 1];
      var (mid, m) := ClonePasses(n, init, config, revisions, defaultStatus, next);
      ClonePassesFresh(n, init, config, revisions, defaultStatus, next);
      assert ClonePasses(n, init, config, revisions, defaultStatus, next) == (mid, m);
      assert forall j :: 0 <= j < |langs| - 1 ==> langs[j] == init[j];
      FreshFoldStep(n, mid, langs, config, revisions, defaultStatus, next, m);
      assert ClonePasses(n, langs, config, revisions, defaultStatus, next) ==
        TranslationPass(mid, langs[|langs| - 1], config, revisions, defaultStatus, m);
    }
  }

  // ---------------------------------------------------------------------------------------
  // The clone getForm() builds

  /**
   * The duplicate reads as the original, except for the author and the timestamps, which are
   * written through the language the original is held in.
   */
  lemma PreparedEffect(original: NodeData, newUuid: Uuid, currentUser: nat, now: int, lang': Langcode, name: string)
    ensures Get(Prepared(original, newUuid, currentUser, now), lang', name) ==
      if !Affects(original, original.langcode, name, lang', name) then Get(original, lang', name)
      else if name == UserField then Items([Number(currentUser)])
      else if name in {CreatedField, ChangedField, RevisionTimestampField} then Items([Number(now)])
      else Get(original, lang', name)
  {
    var dup := DuplicateNode(original, newUuid);
    var l := dup.langcode;
    var withUser := SetField(dup, l, UserField, Items([Number(currentUser)]));
    var withCreated := SetField(withUser, l, CreatedField, Items([Number(now)]));
    var withChanged := SetField(withCreated, l, ChangedField, Items([Number(now)]));
    GetSetField(dup, l, UserField, Items([Number(currentUser)]), lang', name);
    GetSetField(withUser, l, CreatedField, Items([Number(now)]), lang', name);
    GetSetField(withCreated, l, ChangedField, Items([Number(now)]), lang', name);
    GetSetField(withChanged, l, RevisionTimestampField, Items([Number(now)]), lang', name);
  }

  /** A field no pass touches keeps the original's value, in every translation. */
  lemma ClonedUntouched(original: NodeData, config: Config, revisions: map<nat, BlockContent>, defaultStatus: int,
                        currentUser: nat, now: int, next: nat, lang': Langcode, name: string)
    requires WellFormed(original) && !Touched(original, config, name)
    requires name !in {UserField, CreatedField, ChangedField, RevisionTimestampField}
    ensures Get(ClonedNode(original, config, revisions, defaultStatus, currentUser, now, next).0, lang', name) ==
      Get(original, lang', name)
  {
    var p := Prepared(original, next, currentUser, now);
    ClonePassesFrame(p, original.languages, config, revisions, defaultStatus, next + 1, lang', name);
    PreparedEffect(original, next, currentUser, now, lang', name);
  }

  /** The author is the current user and the three timestamps are `now`, unless a pass writes them. */
  lemma ClonedAuthorship(original: NodeData, config: Config, revisions: map<nat, BlockContent>, defaultStatus: int,
                         currentUser: nat, now: int, next: nat, name: string)
    requires WellFormed(original) && !Touched(original, config, name)
    requires name in {UserField, CreatedField, ChangedField, RevisionTimestampField}
    ensures Get(ClonedNode(original, config, revisions, defaultStatus, currentUser, now, next).0, original.langcode, name) ==
      if name == UserField then Items([Number(currentUser)]) else Items([Number(now)])
  {
    var p := Prepared(original, next, currentUser, now);
    ClonePassesFrame(p, original.languages, config, revisions, defaultStatus, next + 1, original.langcode, name);
    PreparedEffect(original, next, currentUser, now, original.langcode, name);
  }

  /** Preparing the duplicate leaves every title as it was. */
  lemma PreparedTitles(original: NodeData, next: nat, currentUser: nat, now: int)
    ensures forall lang :: Title(Prepared(original, next, currentUser, now), lang) == Title(original, lang)
  {
    forall lang ensures Title(Prepared(original, next, currentUser, now), lang) == Title(original, lang) {
      PreparedEffect(original, next, currentUser, now, lang, TitleFieldName);
    }
  }

  /** Every translation's title carries the configured prefix once. */
  lemma ClonedTitles(original: NodeData, config: Config, revisions: map<nat, BlockContent>, defaultStatus: int,
                     currentUser: nat, now: int, next: nat)
    requires WellFormed(original) && Translatable(original, TitleFieldName) && DistinctLanguages(original.languages)
    requires TitleFieldName !in ExcludedNodeFields(config, original.bundle)
    ensures var r := ClonedNode(original, config, revisions, defaultStatus, currentUser, now, next).0;
      forall j :: 0 <= j < |original.languages| ==>
        Get(r, original.languages[j], TitleFieldName) == Items([Item.Text(TitlePrefix(config) + Title(original, original.languages[j]))])
  {
    var p := Prepared(original, next, currentUser, now);
    ClonePassesTitles(p, original.languages, config, revisions, defaultStatus, next + 1);
    PreparedTitles(original, next, currentUser, now);
  }

  /** Without clone_status every translation is set to the bundle's default status. */
  lemma ClonedStatus(original: NodeData, config: Config, revisions: map<nat, BlockContent>, defaultStatus: int,
                     currentUser: nat, now: int, next: nat)
    requires WellFormed(original) && !KeepsStatus(config)
    ensures var r := ClonedNode(original, config, revisions, defaultStatus, currentUser, now, next).0;
      forall j :: 0 <= j < |original.languages| ==> Get(r, original.languages[j], PublishedKey) == Items([Number(defaultStatus)])
  {
    ClonePassesStatus(Prepared(original, next, currentUser, now), original.languages, config, revisions, defaultStatus, next + 1);
  }

  /** A configured node exclusion leaves the field empty in every translation. */
  lemma ClonedExclusions(original: NodeData, config: Config, revisions: map<nat, BlockContent>, defaultStatus: int,
                         currentUser: nat, now: int, next: nat, name: string)
    requires WellFormed(original) && name in ExcludedNodeFields(config, original.bundle) && HasField(original, name)
    requires name != TitleFieldName && (name != PublishedKey || KeepsStatus(config))
    ensures var r := ClonedNode(original, config, revisions, defaultStatus, currentUser, now, next).0;
      forall j :: 0 <= j < |original.languages| ==> IsEmpty(Get(r, original.languages[j], name))
  {
    ClonePassesExcluded(Prepared(original, next, currentUser, now), original.languages, config, revisions, defaultStatus, next + 1, name);
  }

  /**
   * The clone owns only paragraphs and inline blocks minted after the node's own uuid: none is
   * shared with the original, whose identities were all issued before `next`.
   */
  lemma ClonedOwnsFreshEntities(original: NodeData, config: Config, revisions: map<nat, BlockContent>, defaultStatus: int,
                                currentUser: nat, now: int, next: nat)
    requires WellFormed(original)
    ensures var r := ClonedNode(original, config, revisions, defaultStatus, currentUser, now, next).0;
      forall j :: 0 <= j < |original.languages| ==> OwnedFresh(r, original.languages[j], next + 1)
  {
    ClonePassesFresh(Prepared(original, next, currentUser, now), original.languages, config, revisions, defaultStatus, next + 1);
  }

  /**
   * The clone shares no identity with the original: neither its own uuid, nor a paragraph its
   * paragraph fields refer to, nor an inline block or block copy of its layouts, in any
   * translation the passes visit, is the uuid of anything the original holds or reaches.
   */
  lemma ClonedSharesNothing(original: NodeData, config: Config, revisions: map<nat, BlockContent>, defaultStatus: int,
                            currentUser: nat, now: int, next: nat)
    requires WellFormed(original) && IdentitiesBelow(original, revisions, next)
    ensures var r := ClonedNode(original, config, revisions, defaultStatus, currentUser, now, next).0;
      !OriginalIdentity(original, revisions, r.uuid)
    ensures var r := ClonedNode(original, config, revisions, defaultStatus, currentUser, now, next).0;
      forall j, name, k: nat, u: Uuid ::
        0 <= j < |original.languages| && ParagraphTarget(original, name) && RefersTo(Get(r, original.languages[j], name), k, u) ==>
        !OriginalIdentity(original, revisions, u)
    ensures var r := ClonedNode(original, config, revisions, defaultStatus, currentUser, now, next).0;
      forall j, i, m, u: Uuid ::
        && 0 <= j < |original.languages| && HasField(original, LayoutFieldName)
        && 0 <= i < |Sections(Get(r, original.languages[j], LayoutFieldName))|
        && 0 <= m < |Sections(Get(r, original.languages[j], LayoutFieldName))[i].components|
        && BlockIdentity(Sections(Get(r, original.languages[j], LayoutFieldName))[i].components[m], u)
        ==> !OriginalIdentity(original, revisions, u)
  {
    var r := ClonedNode(original, config, revisions, defaultStatus, currentUser, now, next).0;
    var langs := original.languages;
    ClonedOwnsFreshEntities(original, config, revisions, defaultStatus, currentUser, now, next);
    forall j, name, k: nat, u: Uuid |
      0 <= j < |langs| && ParagraphTarget(original, name) && RefersTo(Get(r, langs[j], name), k, u)
      ensures !OriginalIdentity(original, revisions, u)
    {
      assert OwnedFresh(r, langs[j], next + 1);
      assert RefsFresh(Get(r, langs[j], name), next + 1);
    }
    forall j, i, m, u: Uuid |
      && 0 <= j < |langs| && HasField(original, LayoutFieldName)
      && 0 <= i < |Sections(Get(r, langs[j], LayoutFieldName))|
      && 0 <= m < |Sections(Get(r, langs[j], LayoutFieldName))[i].components|
      && BlockIdentity(Sections(Get(r, langs[j], LayoutFieldName))[i].components[m], u)
      ensures !OriginalIdentity(original, revisions, u)
    {
      assert OwnedFresh(r, langs[j], next + 1);
      assert ComponentFresh(Sections(Get(r, langs[j], LayoutFieldName))[i].components[m], next + 1);
    }
  }

  /** The duplicate's layouts are those of the original, so they stay below the advanced counter. */
  lemma PreparedLayouts(original: NodeData, next: nat, currentUser: nat, now: int)
    requires LayoutsValid(original, next)
    ensures LayoutsValid(Prepared(original, next, currentUser, now), next + 1)
  {
    var p := Prepared(original, next, currentUser, now);
    forall lang' ensures LayoutValid(Sections(Get(p, lang', LayoutFieldName)), next + 1) {
      PreparedEffect(original, next, currentUser, now, lang', LayoutFieldName);
      LayoutValidWiden(Sections(Get(original, lang', LayoutFieldName)), next, next + 1);
    }
  }

  /** Every layout of the clone stays keyed by uuid, with every uuid issued before the counter's final value. */
  lemma ClonedLayouts(original: NodeData, config: Config, revisions: map<nat, BlockContent>, defaultStatus: int,
                      currentUser: nat, now: int, next: nat)
    requires WellFormed(original) && LayoutsValid(original, next)
    ensures var r := ClonedNode(original, config, revisions, defaultStatus, currentUser, now, next);
      LayoutsValid(r.0, r.1)
  {
    var p := Prepared(original, next, currentUser, now);
    PreparedLayouts(original, next, currentUser, now);
    ClonePassesLayout(p, original.languages, config, revisions, defaultStatus, next + 1);
    assert ClonedNode(original, config, revisions, defaultStatus, currentUser, now, next) ==
      ClonePasses(p, original.languages, config, revisions, defaultStatus, next + 1);
  }
}

=== FILE: settings.dfy ===
/**
 * The module's read-only configuration object `quick_node_clone.settings`, and the PHP
 * conversions the form builder applies to the values it reads from it.
 */
module Settings {
  import opened Wrappers

  /** A configuration value as PHP sees it after reading it from the config store. */
  datatype Setting = Null | Flag(flag: bool) | Text(text: string) | Names(names: seq<string>)

  /** The settings object: dotted key to value; a key that is not stored reads as NULL. */
  type Config = map<string, Setting>

  const TitlePrefixKey := "text_to_prepend_to_title"
  const CloneStatusKey := "clone_status"

  /** PHP's boolean conversion: the test `if ($x = ...)`, and `!empty($x)` on a set value. */
  predicate Truthy(v: Setting)
  {
    match v
    case Null => false
    case Flag(b) => b
    case Text(s) => s != "" && s != "0"
    case Names(ns) => |ns| > 0
  }

  /** PHP's string conversion, as used by the concatenation `$x . " "`. */
  function PhpString(v: Setting): string
  {
    match v
    case Null => ""
    case Flag(b) => if b then "1" else ""
    case Text(s) => s
    case Names(_) => "Array"
  }

  /** getConfigSettings: one lookup in the settings object. */
  function GetConfigSettings(config: Config, key: string): (v: Setting)
    ensures key !in config ==> v == Null && !Truthy(v)
    ensures key in config ==> v == config[key]
  {
    if key in config then config[key] else Null
  }

  function ParagraphExclusionKey(bundle: string): string
  {
    "exclude.paragraph." + bundle
  }

  function NodeExclusionKey(bundle: string): string
  {
    "exclude.node." + bundle
  }

  /**
   * The exclusion settings are kept apart: a paragraph bundle's key is never a node bundle's,
   * and each kind of key names exactly one bundle.
   */
  lemma ExclusionKeysApart(bundle: string, other: string)
    ensures ParagraphExclusionKey(bundle) != NodeExclusionKey(other)
    ensures ParagraphExclusionKey(bundle) == ParagraphExclusionKey(other) <==> bundle == other
    ensures NodeExclusionKey(bundle) == NodeExclusionKey(other) <==> bundle == other
  {
    assert ParagraphExclusionKey(bundle)[8] == 'p' && NodeExclusionKey(other)[8] == 'n';
    assert ParagraphExclusionKey(bundle)[18..] == bundle && ParagraphExclusionKey(other)[18..] == other;
    assert NodeExclusionKey(bundle)[13..] == bundle && NodeExclusionKey(other)[13..] == other;
  }

  /**
   * excludeParagraphField: NULL when the bundle's exclusion setting is missing or falsy (an
   * empty list included, because of the truthiness test), otherwise list membership. A truthy
   * value that is not a list makes `in_array` return NULL as well.
   */
  function ExcludeParagraphField(config: Config, fieldName: string, bundle: string): (r: Option<bool>)
    ensures r.None? <==> !GetConfigSettings(config, ParagraphExclusionKey(bundle)).Names?
                         || GetConfigSettings(config, ParagraphExclusionKey(bundle)).names == []
    ensures r == Some(true) <==> GetConfigSettings(config, ParagraphExclusionKey(bundle)).Names?
                                 && fieldName in GetConfigSettings(config, ParagraphExclusionKey(bundle)).names
  {
    var excludeFields := GetConfigSettings(config, ParagraphExclusionKey(bundle));
    if Truthy(excludeFields) then
      (if excludeFields.Names? then Some(fieldName in excludeFields.names) else None)
    else None
  }

  /** The `if` at the call site: only a TRUE answer clears the field. */
  predicate ParagraphFieldExcluded(config: Config, fieldName: string, bundle: string)
  {
    ExcludeParagraphField(config, fieldName, bundle) == Some(true)
  }

  /**
   * The field names that the node pass unsets for a bundle: the configured list when it is
   * truthy; a truthy value that is not a list gives `foreach` nothing to iterate.
   */
  function ExcludedNodeFields(config: Config, bundle: string): (names: seq<string>)
    ensures forall f :: f in names <==>
      GetConfigSettings(config, NodeExclusionKey(bundle)).Names? && f in GetConfigSettings(config, NodeExclusionKey(bundle)).names
  {
    var excludeFields := GetConfigSettings(config, NodeExclusionKey(bundle));
    if Truthy(excludeFields) && excludeFields.Names? then excludeFields.names else []
  }

  /** The text put in front of every cloned title: the configured prefix and one space, or nothing. */
  function TitlePrefix(config: Config): (prefix: string)
    ensures Truthy(GetConfigSettings(config, TitlePrefixKey)) ==>
      prefix == PhpString(GetConfigSettings(config, TitlePrefixKey)) + " "
    ensures !Truthy(GetConfigSettings(config, TitlePrefixKey)) ==> prefix == ""
  {
    var titlePrependConfig := GetConfigSettings(config, TitlePrefixKey);
    if Truthy(titlePrependConfig) then PhpString(titlePrependConfig) + " " else ""
  }

  /** Whether the clone keeps the duplicated publishing status (`clone_status` truthy). */
  predicate KeepsStatus(config: Config)
  {
    Truthy(GetConfigSettings(config, CloneStatusKey))
  }
}

=== FILE: wrappers.dfy ===
/** Optional values, used for PHP's nullable results (a missing revision, an undecodable blob,
    the three-valued answer of the paragraph exclusion check). */
module Wrappers {

  datatype Option<+T> = None | Some(value: T)

}
